=== FILE: README.md ===
# A minimal Redis-style server: RESP2 codec, append-only log, request dispatch

This Dafny project models the sequential core of a small Go server that speaks
RESP2, the Redis Serialization Protocol, version 2. It covers three pieces:

- **The codec** (`resp.go`). `Resp.Value` is the tagged union of simple string,
  error, integer, bulk string, null, array, and `Empty`. `Empty` stands for
  Go's zero `Value{}`, whose type tag is `""`. `Resp.Marshal` is the encoder.
  `Resp.Read` is the decoder. It is a pure function from the bytes still
  unread to the decoded value and the bytes left. Like the Go code, it only
  understands `*` (array) and `$` (bulk string) frames.
- **The append-only log** (`aof.go`). `Aof.Log` holds the file's bytes and an
  open/closed flag. `Aof.Write` appends `Marshal(v)`. `Aof.Read` is the
  replay loop exactly as written: its body returns after one iteration, so
  the callback sees at most the first record.
- **Request handling** (`main.go`). `Server.Handle` is one iteration of the
  connection loop. It returns an ordered trace of effects (log append, handler
  call, reply bytes), the new log, and the new store. `Server.Serve` runs that
  loop over the bytes a client sends. `Server.ReplayCallback` and
  `Server.Startup` model the callback main passes to `aof.Read`. The command
  table is `Server.Registry`: a set of known names plus an uninterpreted
  handler over an abstract store type.

The central theorem is `RespProperties.RoundTrip`. For any value built only
from bulk strings and arrays, `Read(Marshal(v) + rest)` returns `v` and
leaves exactly `rest`. Every request made only of bulk strings and arrays,
which is what a RESP2 client sends, has that shape. Other requests do not
round-trip. An element whose marker is `+`, `-` or `:` decodes to `Empty`
(resp.go:144-146), and `Empty` encodes to nothing. So
`*3\r\n$3\r\nSET\r\n$1\r\nk\r\n:1\r\n` runs SET with the arguments
`[Bulk("k"), Empty]`. It also writes a log record whose header announces
three elements while only two follow.
- When nothing follows that record, it decodes to io.EOF
  (`RespProperties.EmptyElementBreaksRoundTrip`).
- When another record follows, the decoder takes that record as the missing
  element. `RespProperties.EmptyElementSwallowsNext` shows this for a bulk
  string after a two-element array. So when such a record comes first in the
  log, `aof.Read` hands the callback a SET whose last argument is the next
  record.
- In the middle of an array, an `Empty` element's missing bytes shift every
  later element: the decoder reads the next element's marker as the `Empty`
  element. `RespProperties.SimpleElementMisread` shows this for
  `[Empty, Str("abc")]`: it decodes as `[Empty, Empty]` and leaves `bc\r\n`
  unread. The same holds for any text whose first byte is not `*` or `$`.

The modelling assumptions are listed under "## Left out":
- every write lands at the end of the log, and `Aof.Read` reads from the start (file offsets);
- a bulk payload read delivers every available byte (bufio short reads);
- a negative length is the error `NegativeLength`, standing for Go's panic (Go panics).

How the code behaves at startup, set against `Aof.ReplayAll`, the reference
that decodes every record in the log:
- `main` ignores the error `aof.Read` returns (main.go:24), and so does
  `Server.Startup`. Some malformed first records start the server with
  nothing replayed:
  - a record cut inside a length line, or before the payload of its last
    element, as `Aof.ReadTruncatedRecord` shows for a cut right after the
    array header;
  - a first length line that strconv.Atoi rejects (`Aof.ReadInvalidLength`).
- A first record cut inside or after the payload of its last bulk element is
  still delivered, so a torn SET that comes first in the log is replayed:
  - with the missing payload bytes read as zero bytes (`Aof.ReadTornPayload`);
  - intact, when only the final CRLF is missing (`Aof.ReadLostTrailer`).
- Other first records make Go panic instead:
  - A negative length, as in "$-1\r\n" or "*-1\r\n", panics in `make`
    (resp.go:160, resp.go:191). The model's `NegativeLength` error stands in
    for that panic, and `Server.Startup` then replays nothing.
  - A first byte other than '*' and '$' decodes to `Value{}` with no error
    (resp.go:146). A well-formed bulk record decodes to a bulk string. For
    both, the callback panics on `value.array[0]` (main.go:25).
  - An unknown command name reaches `err.Error()` on a nil error (main.go:29).

  `Server.Startup`'s requires excludes the callback panics: every record it
  is given must be a non-empty array that names a known command.
- `aof.Read` returns after the first iteration of its loop (aof.go:68-77), so
  at most one record is replayed. `Aof.ReadDeliversOnlyFirst` and
  `Server.StartupAppliesOnlyFirst` state the difference from `ReplayAll`.
- An array or bulk length of 0 gives an empty value. "$-1\r\n", the null
  that `Marshal` writes, does not read back: Go panics on it, and the model
  fails with `NegativeLength` (`RespProperties.NullNotReadBack`).

## Model

| member | source | states |
|---|---|---|
| `Text.Decimal` | resp.go:73 | strconv.Itoa of a length: a non-empty run of decimal digits whose value is the length, and which starts with '0' only when it is "0" itself |
| `Text.AtoiDecimal` | resp.go:178 | strconv.Atoi reads back the decimal spelling of any length |
| `Text.AtoiNegative` | resp.go:178 | strconv.Atoi accepts a leading minus, so a "-1" length line parses to -1 |
| `Text.Atoi` | resp.go:178-181 | strconv.Atoi accepts a line exactly when it is an optional sign followed by at least one digit; the value is the decimal value of the digits, negated after '-' |
| `Text.ToUpper` | main.go:66 | upper-casing keeps the length of the name |
| `Text.ToUpperIdempotent` | main.go:66 | upper-casing a name twice equals upper-casing it once |
| `Text.ToUpperNoLower` | main.go:66 | an upper-cased name contains no lower-case ASCII letter |
| `Resp.ReadLine` | resp.go:117-131 | on success, returns the bytes before the first CR that has a following byte, consumes that byte unchecked, and leaves everything after it; fails with io.EOF exactly when no CR is followed by a byte |
| `Resp.ReadInteger` | resp.go:173-183 | a successful length read consumes at least a CR and one more byte and leaves a suffix of the input |
| `Resp.Read` | resp.go:133-148 | a successful decode consumes at least the marker byte |
| `Resp.ReadArray` | resp.go:150-171 | a successful array decode yields an array and consumes at least the CR and the byte after it that end its length line |
| `RespProperties.ReadArrayCount` | resp.go:154-168 | a decoded array has exactly as many elements as its length line announces |
| `Resp.ReadElems` | resp.go:159-170 | decoding n elements yields exactly n values when it succeeds |
| `Resp.ReadBulk` | resp.go:185-197 | a successful bulk decode yields a bulk string and consumes at least the CR and the byte after it that end its length line |
| `RespProperties.ReadBulkLength` | resp.go:187-193 | a decoded bulk string has exactly as many bytes as its length line announces |
| `Resp.Fill` | resp.go:191-192 | the payload buffer has exactly the declared length; it holds the next n bytes when they are there, and otherwise what is left followed by zero bytes |
| `Resp.PayloadTail` | resp.go:192-195 | what a bulk decode leaves is a suffix of what followed its length line: nothing when the payload ran short, and otherwise what is left after the n payload bytes and at least two trailer bytes |
| `Resp.ReadLineAt` | resp.go:117-131 | when the first CR of the input has a byte after it, readLine returns exactly the bytes before that CR and leaves everything after the byte that follows it |
| `Resp.ReadLineLoop` | resp.go:117-131 | Go's byte-at-a-time loop finds the same line, consumes the same bytes, and fails in the same cases as `ReadLine` |
| `Resp.MarshalArrayLoop` | resp.go:80-90 | Go's append loop produces the same bytes as the recursive array encoding |
| `Resp.MarshalSeqSnoc` | resp.go:86-88 | encoding one more element appends exactly that element's encoding |
| `Resp.Marshal` | resp.go:45-60 | the encoding is empty exactly for the integer and the empty Value, which fall through the switch |
| `Resp.MarshalShape` | resp.go:45-99 | every non-empty encoding is at least three bytes long, starts with the marker of its type ('*' for arrays, '$' for bulk strings and null, '+' for strings, '-' for errors) and ends with CRLF |
| `Resp.MarshalSeqShape` | resp.go:86-88 | the concatenated element encodings are empty, or at least three bytes long and end with CRLF |
| `Resp.MarshalSeqEmptyIff` | resp.go:86-88 | the concatenated element encodings are empty exactly when every element encodes to nothing |
| `RespProperties.ReadLineOf` | resp.go:117-131 | a line without CR, then CR and any byte: readLine returns the line and leaves the rest |
| `RespProperties.ReadIntegerOf` | resp.go:173-183 | a length line holding a decimal length reads back as that length |
| `RespProperties.BulkPayloadVerbatim` | resp.go:185-197 | after a length line for n, the payload is exactly the next n bytes, CR and LF included; the trailer line is consumed and its content and terminator byte are not checked |
| `RespProperties.RoundTrip` | resp.go:133-197 | for a value made of bulk strings and arrays, decoding its encoding followed by any bytes gives back the value and leaves exactly those bytes |
| `RespProperties.RoundTripSeq` | resp.go:159-170 | decoding n elements from the concatenated encodings of n such values gives back those values in order and leaves the rest |
| `RespProperties.MarshalSeqAppend` | resp.go:86-88 | element encodings concatenate in order |
| `RespProperties.BulkEncoding` | resp.go:70-78 | a bulk encoding is '$', the decimal spelling of the payload length, CRLF, the payload, then CRLF; its first line parses back to the payload length |
| `RespProperties.ArrayEncoding` | resp.go:80-85 | an array encoding is '*', the decimal spelling of the element count, CRLF, then the element encodings; its first line parses back to the element count |
| `RespProperties.MarshalSeqAt` | resp.go:86-88 | element i's encoding sits between the encodings of the elements before it and those after it |
| `RespProperties.FixedEncodings` | resp.go:45-103 | a simple string is '+', its text, CRLF; an error is '-', its text, CRLF; null is exactly "$-1\r\n"; an integer and the empty Value encode to nothing |
| `RespProperties.UnknownMarker` | resp.go:139-147 | any first byte other than '*' and '$' decodes to Empty with no error and consumes only that byte |
| `RespProperties.SimpleValuesNotReadBack` | resp.go:133-147 | an encoded simple string or error decodes to Empty and leaves its text unread |
| `RespProperties.NullNotReadBack` | resp.go:185-191 | the encoded null decodes to the negative-length failure, not to null |
| `RespProperties.ReadEmpty` | resp.go:134-137 | decoding an empty stream is io.EOF |
| `RespProperties.ReadElemsSplit` | resp.go:159-170 | decoding m + n elements equals decoding m, then n more from where those stopped; a failure among the first m is the failure of the whole |
| `RespProperties.ReadElemsFailsAt` | resp.go:161-165 | if element k fails to decode, the whole array fails with that same error |
| `RespProperties.EmptyElementBreaksRoundTrip` | resp.go:150-171 | an array of a bulk string and an Empty element, with nothing after it, encodes to a header that announces two elements while one follows, so decoding it ends in io.EOF |
| `RespProperties.EmptyElementSwallowsNext` | resp.go:150-171 | the same array followed by a bulk string's encoding decodes as the two-bulk array that has taken that bulk string in, and leaves the rest |
| `RespProperties.SimpleElementMisread` | resp.go:139-171 | the encoding of an array of Empty and a simple string whose text starts with a byte other than '*' or '$' decodes as two Empty elements: the string's marker and its first text byte each read as one, and the rest of the text and its CRLF are left unread |
| `RespProperties.ReadLeavesSuffix` | resp.go:133-148 | what a decode leaves is its input minus a prefix |
| `RespProperties.ReadArrayLeavesSuffix` | resp.go:150-171 | the same for an array decode |
| `RespProperties.ReadElemsLeavesSuffix` | resp.go:159-170 | the same for the element loop |
| `RespProperties.ReadBulkLeavesSuffix` | resp.go:185-197 | the same for a bulk decode, including a trailer read that fails |
| `Aof.Write` | aof.go:57-62 | a write succeeds exactly when the file is open and the OS reports no error; success appends exactly the encoding of the value; failure leaves the content unchanged |
| `Aof.Close` | aof.go:50-54 | closing keeps the content and marks the file closed; it fails exactly when the file was already closed |
| `Aof.Read` | aof.go:64-79 | on a closed file, Read returns the closed-file error and makes no callback; otherwise the callback sees at most one record, the first, exactly when it decodes; a failed decode returns no error when it is io.EOF and the decode error otherwise; the log is only an input |
| `Aof.WriteTwice` | aof.go:57-62 | two successful writes leave the old content, then the first encoding, then the second |
| `Aof.WriteAllAppends` | aof.go:57-62 | successful writes of several values leave the old content followed by their encodings, in order, and the file open |
| `Aof.ReplayAllRecords` | aof.go:60 | the log needs no separators: decoding record after record from the written encodings recovers the values, in order |
| `Aof.ReadEmptyLog` | aof.go:68-78 | on an empty log, Read returns no error and calls the callback zero times |
| `Aof.ReadIsFirstOfReplayAll` | aof.go:68-77 | Read delivers the first record a full replay delivers and nothing more; on a log with no decodable record it agrees with the full replay |
| `Aof.ReadDeliversOnlyFirst` | aof.go:68-77 | on a log of two or more written records, Read delivers only the first and returns no error, while a full replay delivers all of them |
| `Aof.ReadTruncatedRecord` | aof.go:69-75 | a record cut off right after its array header ends in io.EOF; Read returns no error and makes no callback |
| `Aof.ReadTornPayload` | aof.go:69-72 | a one-element record cut off inside its bulk payload is still delivered, with the missing payload bytes read as zero bytes, so the replayed payload is the bytes present in the log followed by zero bytes, and differs from them |
| `Aof.ReadLostTrailer` | aof.go:69-72 | a one-element record whose payload arrived whole but whose final CRLF is missing or cut is delivered intact, with no error |
| `Aof.ReadInvalidLength` | aof.go:69-76 | a length line that is not a decimal integer is returned as the error, with no callback |
| `Aof.WriteAfterClose` | aof.go:50-62 | after Close, every write fails with the closed-file error and leaves the content unchanged |
| `Server.Handle` | main.go:56-83 | a non-array or empty-array request does nothing; an unknown name gets exactly "+\r\n" and nothing else; a known name runs its handler once with the upper-cased name and elements 1 onward, and the reply is the encoding of the handler's result; the request is appended once, exactly for known SET and HSET, and before the handler runs; the append succeeds exactly when the log is open and the write reports no fault, and the log grows by the appends that succeeded |
| `Server.Name` | main.go:66 | the command name is element 0's bulk field upper-cased: the same length, each byte kept or moved from a-z to A-Z, no lower-case letter left; a non-bulk element 0 gives the empty name |
| `Server.Args` | main.go:67 | the arguments are the elements after the first, in order |
| `Server.LowerCaseSet` | main.go:66-76 | a request named "set" in lower case is a SET command, with the elements after the name as its arguments |
| `Server.Serve` | main.go:46-85 | across a whole connection, the log grows by exactly the encodings of the successfully appended requests, in order; whether a write fails is decided separately for each request |
| `Server.ServeAppendsPersisted` | main.go:76-80 | every request a connection appends to the log is a known SET or HSET command |
| `Server.DecodeErrorCloses` | main.go:50-54 | a decode error ends the loop, with no reply, no log record and no handler call |
| `Server.SkipsMalformed` | main.go:56-64 | a bulk string or empty array at top level gets no reply and no log record, and the next request is served as if it had not been sent |
| `Server.UnknownCommand` | main.go:69-74 | an unknown command gets "+\r\n", with no log record and no handler call, and the loop goes on |
| `Server.UnknownCommandExample` | main.go:69-74 | the bytes "*2\r\n$4\r\nNOPE\r\n$1\r\nX\r\n" get "+\r\n" and the connection reads on |
| `Server.PersistedAppendsOnce` | main.go:76-80 | a known command is appended exactly once if its name is SET or HSET, and never otherwise |
| `Server.TransientFault` | main.go:76-80 | a failed log write for one request does not stop the next request from being logged: after a failure and then a success, the log holds only the second request |
| `Server.WriteFaultIgnored` | main.go:77-83 | whether the log write fails changes neither the handler call, nor the reply, nor the store |
| `Server.ReplayMatchesLive` | main.go:24-33 | the replay callback makes the same handler call as the live path and leaves the same store, without writing the log |
| `Server.ReplayCallback` | main.go:24-33 | the replay callback leaves the store the live path leaves for the same request, whatever the log and the write fault |
| `Server.Startup` | main.go:24-33 | startup leaves the store unchanged when aof.Read delivers nothing, and otherwise applies the replay callback to the one record delivered |
| `Server.StartupReplaysOne` | main.go:24-33 | a log holding one logged request replays to the store the live request left |
| `Server.StartupAppliesOnlyFirst` | main.go:24-33 | with two or more records in the log, startup applies only the first |
| `Server.SessionThenStartup` | main.go:24-33 | after a session on an empty log that logged at least one request, all of them made of bulk strings and arrays, the next startup replays exactly the first logged request |

## Left out

- TCP listen and accept, and the goroutine per connection (main.go:10-44). The model is one sequential connection loop.
- The fsync goroutine, the mutex and the one-second sleep (aof.go:36-44). Each write is atomic.
- Opening the log file (aof.go:26-47). A log is built directly as `Aof.Log`. The unused `rd` field is not modelled.
- File offsets. The file is opened without O_APPEND and replayed through a buffered reader (aof.go:27, aof.go:67), so where later writes land depends on the OS offset. The model assumes every write lands at the end of the content.
- The read offset. `Aof.Read` reads the content from its start, as `aof.Read` does on a file `NewAof` has just opened (main.go:17-24). On a handle that has been written, Go reads from the current offset, finds io.EOF at once, and replays nothing. So the lemmas that apply `Aof.Read` to a log built by `Aof.WriteAll` or `Server.Handle` describe the next startup, after the file has been reopened.
- bufio short reads. `reader.Read(bulk)` may fill fewer than n bytes even when more bytes are coming (resp.go:192). The model delivers every byte that is available up to n. When fewer than n bytes remain, the rest of the zero-filled buffer stays zero. The errors of that read and of the trailer `readLine` are ignored, as in Go.
- `NewResp(conn)` is created on every loop iteration (main.go:49), which can drop pipelined bytes buffered by the previous reader. The model keeps reading where the last decode stopped.
- The handler table and the handler bodies, which are not part of this model. They are the uninterpreted `Registry.run` over an abstract store.
- Failed reply writes (main.go:72, main.go:83). The code ignores the error of each reply write, so the model records the reply bytes as a `Reply` effect and has no failure case for them.
- Logging through slog and fmt, including the "Unknown type" print (resp.go:145).
- Go panics are not modelled as behaviour. A negative length (resp.go:160, resp.go:191) becomes the error `NegativeLength`, which callers treat like any other non-EOF error. In the replay callback, a record that is not a non-empty array (main.go:25) and an unknown name, whose branch calls `Error()` on a nil error (main.go:29), are preconditions of `Server.ReplayCallback`.
- `Text.ToUpper`: ASCII upper-casing only. The Unicode case mapping of `strings.ToUpper`, and its replacement of invalid UTF-8, are not modelled.
- `Text.Atoi`: the 64-bit range check of `strconv.Atoi` is not modelled, so over-long digit runs parse to their exact value.
- The RESP3 types, which are listed only in a comment (resp.go:10-27).
- A write fault: any OS error from `file.Write` is the input `fault`. In `Server.Serve` it is a function of the input not yet read when each request is handled, so any pattern of failures across the requests of a connection can be given (`Server.TransientFault`). Partial writes are not modelled.

=== FILE: Aof.dfy ===
/**
 * The append-only log of aof.go. The file is its byte content plus an
 * open/closed flag; every write lands at the end of the content.
 */
module Aof {
  import opened Wrappers
  import opened Text
  import Resp
  import opened RespProperties
  import opened Seqs

  datatype Log = Log(content: Bytes, open: bool)

  datatype WriteResult = WriteResult(log: Log, err: Option<Resp.Error>)

  /**
   * Aof.Write: append the encoding of the value. The write fails on a closed
   * file, or when the operating system reports an error (fault), and then
   * leaves the content as it was.
   */
  function Write(log: Log, v: Resp.Value, fault: bool): (r: WriteResult)
    ensures r.log.open == log.open
    ensures r.err.None? <==> log.open && !fault
    ensures r.err.None? ==> r.log.content == log.content + Resp.Marshal(v)
    ensures r.err.Some? ==> r.log.content == log.content
  {
    if !log.open then WriteResult(log, Some(Resp.FileClosed))
    else if fault then WriteResult(log, Some(Resp.WriteFailed))
    else WriteResult(Log(log.content + Resp.Marshal(v), true), None)
  }

  /** Aof.Close: open to closed; closing a closed file is os.ErrClosed. */
  function Close(log: Log): (r: (Log, Option<Resp.Error>))
    ensures !r.0.open && r.0.content == log.content
    ensures r.1.None? <==> log.open
  {
    (Log(log.content, false), if log.open then None else Some(Resp.FileClosed))
  }

  /** What a replay hands to its callback, in order, and the error it returns. */
  datatype Replay = Replay(delivered: seq<Resp.Value>, err: Option<Resp.Error>)

  /**
   * Aof.Read as written: one decode from the start of the file; its value
   * goes to the callback when it decoded cleanly; io.EOF counts as a clean
   * end; and the loop body returns after that first iteration whatever
   * happened. The log itself is only an input.
   */
  function Read(log: Log): (r: Replay)
    ensures |r.delivered| <= 1
    ensures r.err.Some? ==> r.delivered == [] && r.err != Some(Resp.EOF)
    ensures |r.delivered| == 1 <==> log.open && Resp.Read(log.content).Success?
    ensures |r.delivered| == 1 ==> r.delivered[0] == Resp.Read(log.content).value.0 && r.err.None?
    ensures !log.open ==> r == Replay([], Some(Resp.FileClosed))
    ensures log.open && Resp.Read(log.content).Failure? ==>
      r.err == (if Resp.Read(log.content).error.EOF? then None else Some(Resp.Read(log.content).error))
  {
    if !log.open then Replay([], Some(Resp.FileClosed))
    else
      match Resp.Read(log.content)
      case Success((v, _)) => Replay([v], None)
      case Failure(e) => if e.EOF? then Replay([], None) else Replay([], Some(e))
  }

  /**
   * Replaying everything, the reference Read falls short of: decode record
   * after record until the content runs out; a decode error ends the replay
   * and is returned.
   */
  function ReplayAll(s: Bytes): (r: Replay)
    ensures r.err != Some(Resp.EOF)
    decreases |s|
  {
    match Resp.Read(s)
    case Success((v, rest)) =>
      var tail := ReplayAll(rest);
      Replay([v] + tail.delivered, tail.err)
    case Failure(e) => if e.EOF? then Replay([], None) else Replay([], Some(e))
  }

  /** Several writes, one after the other, none failing. */
  function WriteAll(log: Log, vs: seq<Resp.Value>): (r: Log)
    requires log.open
    decreases |vs|
  {
    if |vs| == 0 then log else WriteAll(Write(log, vs[0], false).log, vs[1..])
  }

  /** Two successive writes leave the old content, then the first encoding, then the second. */
  lemma WriteTwice(log: Log, a: Resp.Value, b: Resp.Value)
    requires log.open
    ensures Write(Write(log, a, false).log, b, false).log.content
         == log.content + Resp.Marshal(a) + Resp.Marshal(b)
  {
  }

  /** Writing a sequence of values leaves the old content followed by their encodings in order. */
  lemma {:induction false} WriteAllAppends(log: Log, vs: seq<Resp.Value>)
    requires log.open
    ensures WriteAll(log, vs).content == log.content + Resp.MarshalSeq(vs)
    ensures WriteAll(log, vs).open
    decreases |vs|
  {
    if |vs| == 0 {
      assert log.content + Resp.MarshalSeq(vs) == log.content;
    } else {
      var next := Write(log, vs[0], false).log;
      assert WriteAll(log, vs) == WriteAll(next, vs[1..]);
      assert next.content == log.content + Resp.Marshal(vs[0]);
      WriteAllAppends(next, vs[1..]);
      assert Resp.MarshalSeq(vs) == Resp.Marshal(vs[0]) + Resp.MarshalSeq(vs[1..]);
      Assoc(log.content, Resp.Marshal(vs[0]), Resp.MarshalSeq(vs[1..]));
    }
  }

  /** The log format is self-delimiting: replaying everything recovers the records written, in order. */
  lemma {:induction false} ReplayAllRecords(vs: seq<Resp.Value>)
    requires forall i :: 0 <= i < |vs| ==> BulkTree(vs[i])
    ensures ReplayAll(Resp.MarshalSeq(vs)) == Replay(vs, None)
    decreases |vs|
  {
    if |vs| == 0 {
      ReadEmpty();
    } else {
      var e, tail := Resp.MarshalSeq(vs), Resp.MarshalSeq(vs[1..]);
      assert Resp.Read(e) == Success((vs[0], tail)) by {
        MarshalSeqCons(vs);
        RoundTrip(vs[0], tail);
      }
      assert ReplayAll(e) == Replay([vs[0]] + ReplayAll(tail).delivered, ReplayAll(tail).err);
      assert ReplayAll(tail) == Replay(vs[1..], None) by {
        assert forall i :: 0 <= i < |vs[1..]| ==> BulkTree(vs[1..][i]) by {
          forall i | 0 <= i < |vs[1..]| ensures BulkTree(vs[1..][i]) {
            assert vs[1..][i] == vs[i + 1];
          }
        }
        ReplayAllRecords(vs[1..]);
      }
      assert [vs[0]] + vs[1..] == vs;
    }
  }

  /** An empty log: no error and no callback. */
  lemma ReadEmptyLog()
    ensures Read(Log([], true)) == Replay([], None)
  {
  }

  /** Read delivers at most the first of the records a full replay delivers, and nothing else. */
  lemma ReadIsFirstOfReplayAll(log: Log)
    requires log.open
    ensures Read(log).delivered == ReplayAll(log.content).delivered[..|Read(log).delivered|]
    ensures |ReplayAll(log.content).delivered| > 0 ==> |Read(log).delivered| == 1
    ensures |ReplayAll(log.content).delivered| == 0 ==> Read(log) == ReplayAll(log.content)
  {
  }

  /**
   * The divergence from replaying everything: on a log of two or more records
   * written by Write, Read hands only the first to its callback and reports
   * no error, while a full replay would deliver all of them.
   */
  lemma ReadDeliversOnlyFirst(vs: seq<Resp.Value>)
    requires |vs| >= 2
    requires forall i :: 0 <= i < |vs| ==> BulkTree(vs[i])
    ensures Read(WriteAll(Log([], true), vs)) == Replay([vs[0]], None)
    ensures ReplayAll(WriteAll(Log([], true), vs).content).delivered == vs
  {
    var log := WriteAll(Log([], true), vs);
    assert log.open && log.content == Resp.MarshalSeq(vs) by {
      WriteAllAppends(Log([], true), vs);
      assert [] + Resp.MarshalSeq(vs) == Resp.MarshalSeq(vs);
    }
    ReplayAllRecords(vs);
    var tail := Resp.MarshalSeq(vs[1..]);
    assert Resp.Read(log.content) == Success((vs[0], tail)) by {
      MarshalSeqCons(vs);
      RoundTrip(vs[0], tail);
    }
  }

  /**
   * A record cut off right after its array header, which announces n >= 1
   * elements: the decode ends in io.EOF, which Read takes for a clean end,
   * so there is no error and no callback. A cut inside a bulk payload reads
   * differently (ReadTornPayload).
   */
  lemma ReadTruncatedRecord(n: nat)
    requires n >= 1
    ensures Read(Log([Resp.ARRAY] + Decimal(n) + [CR, LF], true)) == Replay([], None)
  {
    var s := [Resp.ARRAY] + Decimal(n) + [CR, LF];
    assert s[1..] == Decimal(n) + [CR, LF] + [] by {
      DropMarker(Resp.ARRAY, Decimal(n), [CR, LF], []);
      assert s + [] == s;
    }
    ReadIntegerOf(n, LF, []);
    ReadEmpty();
    ReadElemsUnfold(n, []);
    assert Resp.ReadArray(s[1..]) == Failure(Resp.EOF);
  }

  /**
   * A record torn inside its last bulk payload, as a crash in the middle of
   * Write leaves it: the payload is padded with zero bytes up to its declared
   * length and the record is delivered to the callback, with no error.
   */
  lemma ReadTornPayload(n: nat, p: Bytes)
    requires |p| < n
    ensures var record := [Resp.BULK] + Decimal(n) + [CR, LF] + p;
      Read(Log([Resp.ARRAY] + Decimal(1) + [CR, LF] + record, true))
      == Replay([Resp.Array([Resp.Bulk(Resp.Fill(p, n))])], None)
    ensures Resp.Fill(p, n)[..|p|] == p && Resp.Fill(p, n) != p
  {
    var record := [Resp.BULK] + Decimal(n) + [CR, LF] + p;
    var bulk := Resp.Bulk(Resp.Fill(p, n));
    TornBulk(n, p);
    OneElementBody(record, bulk);
    OneElementArray(record, bulk);
  }

  /** The torn bulk string on its own: zero-padded, and nothing left after it. */
  lemma TornBulk(n: nat, p: Bytes)
    requires |p| < n
    ensures Resp.Read([Resp.BULK] + Decimal(n) + [CR, LF] + p) == Success((Resp.Bulk(Resp.Fill(p, n)), []))
  {
    var record := [Resp.BULK] + Decimal(n) + [CR, LF] + p;
    DropMarker(Resp.BULK, Decimal(n), [CR, LF], p);
    ReadIntegerOf(n, LF, p);
    assert Resp.PayloadTail(p, n) == [];
    assert Resp.ReadBulk(record[1..]) == Success((Resp.Bulk(Resp.Fill(p, n)), []));
  }

  /**
   * A record whose last payload arrived whole but whose final CRLF is cut to
   * t, fewer than two bytes: the trailer read fails and is ignored, so the
   * record is delivered intact, with no error.
   */
  lemma ReadLostTrailer(b: Bytes, t: Bytes)
    requires |t| < 2
    ensures var record := [Resp.BULK] + Decimal(|b|) + [CR, LF] + (b + t);
      Read(Log([Resp.ARRAY] + Decimal(1) + [CR, LF] + record, true))
      == Replay([Resp.Array([Resp.Bulk(b)])], None)
  {
    var record := [Resp.BULK] + Decimal(|b|) + [CR, LF] + (b + t);
    LostTrailerBulk(b, t);
    OneElementBody(record, Resp.Bulk(b));
    OneElementArray(record, Resp.Bulk(b));
  }

  /** The bulk string of ReadLostTrailer on its own: read back whole, nothing left. */
  lemma LostTrailerBulk(b: Bytes, t: Bytes)
    requires |t| < 2
    ensures Resp.Read([Resp.BULK] + Decimal(|b|) + [CR, LF] + (b + t)) == Success((Resp.Bulk(b), []))
  {
    var record := [Resp.BULK] + Decimal(|b|) + [CR, LF] + (b + t);
    DropMarker(Resp.BULK, Decimal(|b|), [CR, LF], b + t);
    ReadIntegerOf(|b|, LF, b + t);
    Halves(b, t);
    assert Resp.Fill(b + t, |b|) == b;
    assert Resp.PayloadTail(b + t, |b|) == [];
    assert Resp.ReadBulk(record[1..]) == Success((Resp.Bulk(b), []));
  }

  /** Input holding exactly one value is a one-element array body. */
  lemma OneElementBody(body: Bytes, v: Resp.Value)
    requires Resp.Read(body) == Success((v, []))
    ensures Resp.ReadElems(1, body) == Success(([v], []))
  {
    ReadElemsUnfold(1, body);
    assert Resp.ReadElems(0, []) == Success(([], []));
    assert [v] + [] == [v];
  }

  /** An array header for one element, then input holding exactly one value. */
  lemma OneElementArray(body: Bytes, v: Resp.Value)
    requires Resp.ReadElems(1, body) == Success(([v], []))
    ensures Read(Log([Resp.ARRAY] + Decimal(1) + [CR, LF] + body, true)) == Replay([Resp.Array([v])], None)
  {
    var s := [Resp.ARRAY] + Decimal(1) + [CR, LF] + body;
    DropMarker(Resp.ARRAY, Decimal(1), [CR, LF], body);
    ReadIntegerOf(1, LF, body);
    assert Resp.ReadArray(s[1..]) == Success((Resp.Array([v]), []));
  }

  /** A length line that is not a decimal integer is an error Read returns, with no callback. */
  lemma ReadInvalidLength(line: Bytes, x: byte, rest: Bytes)
    requires NoCR(line) && Atoi(line).None?
    ensures Read(Log([Resp.ARRAY] + line + [CR, x] + rest, true))
         == Replay([], Some(Resp.InvalidInteger(line)))
  {
    var s := [Resp.ARRAY] + line + [CR, x] + rest;
    DropMarker(Resp.ARRAY, line, [CR, x], rest);
    ReadLineOf(line, x, rest);
    assert Resp.ReadInteger(s[1..]) == Failure(Resp.InvalidInteger(line));
    assert s[0] == Resp.ARRAY;
    assert Resp.Read(s) == Failure(Resp.InvalidInteger(line));
  }

  /** Once closed, every write fails with os.ErrClosed and the content stays. */
  lemma WriteAfterClose(log: Log, v: Resp.Value, fault: bool)
    ensures Write(Close(log).0, v, fault) == WriteResult(Close(log).0, Some(Resp.FileClosed))
    ensures Close(log).0.content == log.content
  {
  }
}

=== FILE: Resp.dfy ===
/**
 * The RESP2 codec of resp.go: the tagged Value, its encoder Marshal, and the
 * decoder Read over a byte stream, modelled as a pure function from the
 * remaining input to the decoded value and the input left unconsumed.
 */
module Resp {
  import opened Wrappers
  import opened Text

  const STRING: byte := 43   // '+'
  const ERROR: byte := 45    // '-'
  const INTEGER: byte := 58  // ':'
  const BULK: byte := 36     // '$'
  const ARRAY: byte := 42    // '*'

  /**
   * One protocol unit. Go keeps every variant in one struct keyed by a type
   * string; Empty is that struct's zero value, whose type string is "".
   */
  datatype Value =
    | Str(str: Bytes)
    | Err(msg: Bytes)
    | Int(num: int)
    | Bulk(bulk: Bytes)
    | Null
    | Array(elems: seq<Value>)
    | Empty

  /** The errors that reach the callers of the decoder and of the log. */
  datatype Error =
    | EOF                          // io.EOF: the stream ended first
    | InvalidInteger(line: Bytes)  // strconv.Atoi rejected a length line
    | NegativeLength(n: int)       // make() with a negative length, a panic in Go
    | FileClosed                   // os.ErrClosed from a file that was closed
    | WriteFailed                  // any other error the operating system reports for a write

  /**
   * Encoder. Integers and the empty Value fall into Marshal's default case
   * and encode to nothing (MarshalShape: every other encoding starts with
   * its type marker and ends with CRLF).
   */
  function Marshal(v: Value): (r: Bytes)
    ensures r == [] <==> v.Int? || v.Empty?
    decreases v
  {
    match v
    case Array(elems) => [ARRAY] + Decimal(|elems|) + [CR, LF] + MarshalSeq(elems)
    case Bulk(b) => [BULK] + Decimal(|b|) + [CR, LF] + b + [CR, LF]
    case Str(s) => [STRING] + s + [CR, LF]
    case Null => [BULK, MINUS, 49, CR, LF]
    case Err(m) => [ERROR] + m + [CR, LF]
    case Int(_) => []
    case Empty => []
  }

  /**
   * The marker byte an encoding starts with; null is written as a bulk
   * string of length -1. Integers and the empty Value encode to nothing and
   * have no marker.
   */
  function Marker(v: Value): byte
    requires !v.Int? && !v.Empty?
  {
    if v.Array? then ARRAY
    else if v.Str? then STRING
    else if v.Err? then ERROR
    else BULK
  }

  /** The element encodings of an array, concatenated in order. */
  function MarshalSeq(vs: seq<Value>): Bytes
    decreases vs
  {
    if |vs| == 0 then [] else Marshal(vs[0]) + MarshalSeq(vs[1..])
  }

  /** The element encodings are empty exactly when every element encodes to nothing. */
  lemma {:induction false} MarshalSeqEmptyIff(vs: seq<Value>)
    ensures MarshalSeq(vs) == [] <==> forall v :: v in vs ==> Marshal(v) == []
    decreases |vs|
  {
    if |vs| > 0 {
      assert vs == [vs[0]] + vs[1..];
      assert vs[0] in vs;
      MarshalSeqEmptyIff(vs[1..]);
    }
  }

  /** Every non-empty encoding starts with its type marker and ends with CRLF. */
  lemma {:induction false} MarshalShape(v: Value)
    ensures Marshal(v) != [] ==> |Marshal(v)| >= 3 && EndsWithCRLF(Marshal(v)) && Marshal(v)[0] == Marker(v)
    decreases v
  {
    if v.Array? {
      MarshalSeqShape(v.elems);
      HeaderShape(ARRAY, Decimal(|v.elems|), MarshalSeq(v.elems));
    } else {
      FlatShape(v);
    }
  }

  /** A marker, a first line, then a body that is empty or ends with CRLF. */
  lemma HeaderShape(m: byte, d: Bytes, body: Bytes)
    requires body == [] || EndsWithCRLF(body)
    ensures var e := [m] + d + [CR, LF] + body; |e| >= 3 && EndsWithCRLF(e) && e[0] == m
  {
    CRLFEnds([m] + d);
    ConcatEndsWithCRLF([m] + d + [CR, LF], body);
  }

  lemma FlatShape(v: Value)
    requires !v.Array?
    ensures Marshal(v) != [] ==> |Marshal(v)| >= 3 && EndsWithCRLF(Marshal(v)) && Marshal(v)[0] == Marker(v)
  {
    match v
    case Bulk(b) => CRLFEnds([BULK] + Decimal(|b|) + [CR, LF] + b);
    case Str(t) => CRLFEnds([STRING] + t);
    case Err(m) => CRLFEnds([ERROR] + m);
    case Null =>
    case Int(_) =>
    case Empty =>
  }

  lemma CRLFEnds(a: Bytes)
    ensures EndsWithCRLF(a + [CR, LF])
  {
    assert (a + [CR, LF])[|a|..] == [CR, LF];
  }

  /** The concatenated element encodings are empty or end with CRLF. */
  lemma {:induction false} MarshalSeqShape(vs: seq<Value>)
    ensures MarshalSeq(vs) == [] || (|MarshalSeq(vs)| >= 3 && EndsWithCRLF(MarshalSeq(vs)))
    decreases vs
  {
    if |vs| > 0 {
      assert vs[0] < Array(vs);
      MarshalShape(vs[0]);
      MarshalSeqShape(vs[1..]);
      if Marshal(vs[0]) == [] {
        assert MarshalSeq(vs) == MarshalSeq(vs[1..]);
      } else {
        ConcatEndsWithCRLF(Marshal(vs[0]), MarshalSeq(vs[1..]));
      }
    }
  }

  predicate EndsWithCRLF(s: Bytes) {
    |s| >= 2 && s[|s| - 2..] == [CR, LF]
  }

  /** A concatenation ends with CRLF when its second part does, or when that part is empty and the first does. */
  lemma ConcatEndsWithCRLF(a: Bytes, b: Bytes)
    requires |a| >= 3 && EndsWithCRLF(a)
    requires b == [] || EndsWithCRLF(b)
    ensures |a + b| >= 3 && EndsWithCRLF(a + b)
  {
    if b == [] {
      assert a + b == a;
    } else {
      assert (a + b)[|a + b| - 2..] == b[|b| - 2..];
    }
  }

  /**
   * readLine: the bytes before the first CR that has a byte after it; that
   * byte is consumed too, without checking that it is LF. Running out of
   * input first is io.EOF.
   */
  function ReadLine(s: Bytes): (r: Result<(Bytes, Bytes), Error>)
    ensures r.Success? ==>
      var (line, rest) := r.value;
      && |line| + 2 + |rest| == |s|
      && line == s[..|line|] && s[|line|] == CR && rest == s[|line| + 2..]
      && forall i :: 0 <= i < |line| ==> line[i] != CR
    ensures r.Failure? ==> r.error == EOF && forall i :: 0 <= i < |s| - 1 ==> s[i] != CR
    decreases |s|
  {
    if |s| < 2 then Failure(EOF)
    else if s[0] == CR then Success(([], s[2..]))
    else
      match ReadLine(s[1..])
      case Success((line, rest)) => Success(([s[0]] + line, rest))
      case Failure(e) =>
        assert forall i :: 1 <= i < |s| - 1 ==> s[i] == s[1..][i - 1];
        Failure(e)
  }

  /** rest is what is left of s after some prefix. */
  predicate IsSuffix(rest: Bytes, s: Bytes) {
    |rest| <= |s| && s[|s| - |rest|..] == rest
  }

  /** readInteger: one line, parsed by strconv.Atoi. */
  function ReadInteger(s: Bytes): (r: Result<(int, Bytes), Error>)
    ensures r.Success? ==> |r.value.1| + 2 <= |s| && IsSuffix(r.value.1, s)
  {
    match ReadLine(s)
    case Failure(e) => Failure(e)
    case Success((line, rest)) =>
      match Atoi(line)
      case None => Failure(InvalidInteger(line))
      case Some(n) => Success((n, rest))
  }

  /**
   * Read: one marker byte, then an array or a bulk string. Any other marker
   * decodes to the empty Value, with no error, having consumed only itself.
   */
  function Read(s: Bytes): (r: Result<(Value, Bytes), Error>)
    ensures r.Success? ==> |r.value.1| < |s|
    decreases |s|, 1, 0
  {
    if |s| == 0 then Failure(EOF)
    else if s[0] == ARRAY then ReadArray(s[1..])
    else if s[0] == BULK then ReadBulk(s[1..])
    else Success((Empty, s[1..]))
  }

  /** readArray, after the '*' marker: a length line, then that many values. */
  function ReadArray(s: Bytes): (r: Result<(Value, Bytes), Error>)
    ensures r.Success? ==> r.value.0.Array? && |r.value.1| + 2 <= |s|
    decreases |s|, 0, 0
  {
    match ReadInteger(s)
    case Failure(e) => Failure(e)
    case Success((n, rest)) =>
      if n < 0 then Failure(NegativeLength(n))
      else
        match ReadElems(n, rest)
        case Failure(e) => Failure(e)
        case Success((vs, rest')) => Success((Array(vs), rest'))
  }

  /** The loop of readArray: n values decoded one after the other; the first failure ends it. */
  function ReadElems(n: nat, s: Bytes): (r: Result<(seq<Value>, Bytes), Error>)
    ensures r.Success? ==> |r.value.0| == n && |r.value.1| <= |s|
    decreases |s|, 2, n
  {
    if n == 0 then Success(([], s))
    else
      match Read(s)
      case Failure(e) => Failure(e)
      case Success((v, rest)) =>
        match ReadElems(n - 1, rest)
        case Failure(e) => Failure(e)
        case Success((vs, rest')) => Success(([v] + vs, rest'))
  }

  /**
   * The n-byte buffer readBulk fills: the next n bytes when they are there;
   * otherwise what is left, followed by the zero bytes make() put in the buffer.
   */
  function Fill(s: Bytes, n: nat): (r: Bytes)
    ensures |r| == n
    ensures n <= |s| ==> r == s[..n]
    ensures n > |s| ==> r[..|s|] == s && forall i :: |s| <= i < n ==> r[i] == 0
  {
    if n <= |s| then s[..n] else s + seq(n - |s|, _ => 0)
  }

  /**
   * readBulk, after the '$' marker: a length line, exactly that many payload
   * bytes whatever they are, then one trailer line whose content and whose
   * error are both ignored (an error having consumed the rest of the input).
   */
  function ReadBulk(s: Bytes): (r: Result<(Value, Bytes), Error>)
    ensures r.Success? ==> r.value.0.Bulk? && |r.value.1| + 2 <= |s|
  {
    match ReadInteger(s)
    case Failure(e) => Failure(e)
    case Success((n, rest)) =>
      if n < 0 then Failure(NegativeLength(n))
      else
        Success((Bulk(Fill(rest, n)), PayloadTail(rest, n)))
  }

  /**
   * What readBulk leaves once it has taken n payload bytes and read the
   * trailer line; a trailer read that fails leaves nothing.
   */
  function PayloadTail(rest: Bytes, n: nat): (t: Bytes)
    ensures IsSuffix(t, rest)
    ensures n > |rest| ==> t == []
    ensures t == [] || n + 2 + |t| <= |rest|
  {
    var after := if n <= |rest| then rest[n..] else [];
    match ReadLine(after)
    case Success((line, t)) =>
      assert t == rest[n + |line| + 2..];
      DropIsSuffix(rest, n + |line| + 2);
      t
    case Failure(_) =>
      DropIsSuffix(rest, |rest|);
      []
  }

  /** Dropping a prefix leaves a suffix. */
  lemma DropIsSuffix(s: Bytes, k: nat)
    requires k <= |s|
    ensures IsSuffix(s[k..], s)
  {
  }

  /**
   * readLine as Go writes it: one byte at a time, stopping once the byte
   * before the last one read is CR. Returns whether a line was found, the
   * line, and how many bytes were consumed.
   */
  method ReadLineLoop(s: Bytes) returns (ok: bool, line: Bytes, n: nat)
    ensures ok <==> ReadLine(s).Success?
    ensures ok ==> n <= |s| && line == ReadLine(s).value.0 && s[n..] == ReadLine(s).value.1
  {
    var buf: Bytes := [];
    n := 0;
    while true
      invariant n <= |s| && buf == s[..n]
      invariant forall i :: 0 <= i < n - 1 ==> s[i] != CR
      decreases |s| - n
    {
      if n == |s| {
        return false, [], 0;
      }
      var b := s[n];
      n := n + 1;
      buf := buf + [b];
      if |buf| >= 2 && buf[|buf| - 2] == CR {
        break;
      }
    }
    line := buf[..|buf| - 2];
    ok := true;
    ReadLineAt(s, n - 2);
  }

  /** The first CR that has a byte after it ends the line readLine returns. */
  lemma {:induction false} ReadLineAt(s: Bytes, k: nat)
    requires k + 1 < |s| && s[k] == CR
    requires forall i :: 0 <= i < k ==> s[i] != CR
    ensures ReadLine(s) == Success((s[..k], s[k + 2..]))
    decreases k
  {
    if k > 0 {
      ReadLineAt(s[1..], k - 1);
      assert [s[0]] + s[1..][..k - 1] == s[..k];
    }
  }

  /** marshallArray as Go writes it: the header, then each element's encoding appended in turn. */
  method MarshalArrayLoop(vs: seq<Value>) returns (bytes: Bytes)
    ensures bytes == Marshal(Array(vs))
  {
    bytes := [ARRAY] + Decimal(|vs|) + [CR, LF];
    ghost var header := bytes;
    var i := 0;
    while i < |vs|
      invariant i <= |vs|
      invariant bytes == header + MarshalSeq(vs[..i])
    {
      MarshalSeqSnoc(vs[..i], vs[i]);
      assert vs[..i + 1] == vs[..i] + [vs[i]];
      bytes := bytes + Marshal(vs[i]);
      i := i + 1;
    }
    assert vs[..i] == vs;
  }

  /** Encoding one more element appends its encoding. */
  lemma {:induction false} MarshalSeqSnoc(vs: seq<Value>, v: Value)
    ensures MarshalSeq(vs + [v]) == MarshalSeq(vs) + Marshal(v)
    decreases |vs|
  {
    if |vs| == 0 {
      assert [] + [v] == [v];
    } else {
      assert (vs + [v])[1..] == vs[1..] + [v];
      MarshalSeqSnoc(vs[1..], v);
    }
  }
}

=== FILE: RespProperties.dfy ===
/**
 * What the codec promises: the round trip for requests made of bulk strings
 * and arrays, binary-safe bulk payloads, array decoding in stream order, and
 * the values Marshal can write that Read does not read back.
 */
module RespProperties {
  import opened Wrappers
  import opened Text
  import opened Resp
  import opened Seqs

  /** Values built only from bulk strings and arrays: the shape of every client request. */
  predicate BulkTree(v: Value)
    decreases v
  {
    v.Bulk? || (v.Array? && forall i :: 0 <= i < |v.elems| ==> BulkTree(v.elems[i]))
  }

  predicate NoCR(s: Bytes) {
    forall i :: 0 <= i < |s| ==> s[i] != CR
  }

  lemma DecimalNoCR(n: nat)
    ensures NoCR(Decimal(n))
  {
    var d := Decimal(n);
    assert forall i :: 0 <= i < |d| ==> IsDigit(d[i]);
  }

  /** A line without CR, a CR and any byte: readLine returns the line and consumes the pair. */
  lemma {:induction false} ReadLineOf(line: Bytes, x: byte, rest: Bytes)
    requires NoCR(line)
    ensures ReadLine(line + [CR, x] + rest) == Success((line, rest))
    decreases |line|
  {
    var s := line + [CR, x] + rest;
    if |line| == 0 {
      assert s == [CR, x] + rest;
      assert s[2..] == rest;
    } else {
      assert s[0] == line[0];
      assert s[1..] == line[1..] + [CR, x] + rest;
      ReadLineOf(line[1..], x, rest);
      assert [line[0]] + line[1..] == line;
    }
  }

  /** A length line holding Decimal(n), terminated by CR and any byte, reads as n. */
  lemma ReadIntegerOf(n: nat, x: byte, rest: Bytes)
    ensures ReadInteger(Decimal(n) + [CR, x] + rest) == Success((n, rest))
  {
    DecimalNoCR(n);
    ReadLineOf(Decimal(n), x, rest);
    AtoiDecimal(n);
  }

  /**
   * Bulk payloads are binary safe: after a length line that parses to |p|,
   * exactly the next |p| bytes are the payload whatever they hold (CR and LF
   * included); the byte after the CR of either line is not checked, and the
   * trailer line is consumed and its content discarded.
   */
  lemma BulkPayloadVerbatim(line: Bytes, x: byte, p: Bytes, t: Bytes, y: byte, rest: Bytes)
    requires NoCR(line) && Atoi(line) == Some(|p|)
    requires NoCR(t)
    ensures Read([BULK] + line + [CR, x] + p + t + [CR, y] + rest) == Success((Bulk(p), rest))
  {
    var body := p + (t + [CR, y] + rest);
    BulkLayout(line, x, p, t, y, rest);
    ReadBulkMarker(line + [CR, x] + body);
    Halves(p, t + [CR, y] + rest);
    ReadBulkOf(line, x, body, |p|);
    PayloadTailOf(p, t, y, rest);
  }

  /** The bytes of a bulk record, regrouped as marker, length line and the body after it. */
  lemma BulkLayout(line: Bytes, x: byte, p: Bytes, t: Bytes, y: byte, rest: Bytes)
    ensures [BULK] + line + [CR, x] + p + t + [CR, y] + rest ==
      [BULK] + (line + [CR, x] + (p + (t + [CR, y] + rest)))
  {
    Assoc(p, t + [CR, y], rest);
    Assoc(p, t, [CR, y]);
  }

  /** A '$' marker sends the decode to readBulk on the bytes after it. */
  lemma ReadBulkMarker(u: Bytes)
    ensures Read([BULK] + u) == ReadBulk(u)
  {
    assert ([BULK] + u)[1..] == u;
  }

  /** After n payload bytes, a CR-terminated trailer line is consumed and the rest is left. */
  lemma PayloadTailOf(p: Bytes, t: Bytes, y: byte, rest: Bytes)
    requires NoCR(t)
    ensures PayloadTail(p + (t + [CR, y] + rest), |p|) == rest
  {
    Halves(p, t + [CR, y] + rest);
    ReadLineOf(t, y, rest);
  }

  /** readBulk after a valid length line, with the whole payload present. */
  lemma ReadBulkOf(line: Bytes, x: byte, body: Bytes, n: nat)
    requires NoCR(line) && Atoi(line) == Some(n) && n <= |body|
    ensures ReadBulk(line + [CR, x] + body) ==
      Success((Bulk(body[..n]), PayloadTail(body, n)))
  {
    ReadLineOf(line, x, body);
  }

  /** The round trip: Read on Marshal(v) followed by anything returns v and leaves exactly the rest. */
  lemma {:induction false} RoundTrip(v: Value, rest: Bytes)
    requires BulkTree(v)
    ensures Read(Marshal(v) + rest) == Success((v, rest))
    decreases v, 1
  {
    match v
    case Bulk(b) =>
      DecimalNoCR(|b|);
      AtoiDecimal(|b|);
      assert Marshal(v) + rest == [BULK] + Decimal(|b|) + [CR, LF] + b + [] + [CR, LF] + rest;
      BulkPayloadVerbatim(Decimal(|b|), LF, b, [], LF, rest);
    case Array(vs) =>
      var s := Marshal(v) + rest;
      var body := MarshalSeq(vs) + rest;
      assert s[1..] == Decimal(|vs|) + [CR, LF] + body;
      ReadIntegerOf(|vs|, LF, body);
      RoundTripSeq(vs, rest);
  }

  lemma {:induction false} RoundTripSeq(vs: seq<Value>, rest: Bytes)
    requires forall i :: 0 <= i < |vs| ==> BulkTree(vs[i])
    ensures ReadElems(|vs|, MarshalSeq(vs) + rest) == Success((vs, rest))
    decreases vs, 0
  {
    if |vs| == 0 {
      assert MarshalSeq(vs) + rest == rest;
    } else {
      var tail := MarshalSeq(vs[1..]) + rest;
      MarshalSeqConsRest(vs, rest);
      BulkTreeParts(vs);
      RoundTrip(vs[0], tail);
      RoundTripSeq(vs[1..], rest);
      ReadElemsCons(|vs|, MarshalSeq(vs) + rest, vs[0], tail, vs[1..], rest);
      assert [vs[0]] + vs[1..] == vs;
    }
  }

  lemma MarshalSeqConsRest(vs: seq<Value>, rest: Bytes)
    requires |vs| > 0
    ensures MarshalSeq(vs) + rest == Marshal(vs[0]) + (MarshalSeq(vs[1..]) + rest)
  {
    MarshalSeqCons(vs);
    Assoc(Marshal(vs[0]), MarshalSeq(vs[1..]), rest);
  }

  /** A sequence of bulk/array values splits into a first one and a tail of such values. */
  lemma BulkTreeParts(vs: seq<Value>)
    requires |vs| > 0 && forall i :: 0 <= i < |vs| ==> BulkTree(vs[i])
    ensures BulkTree(vs[0]) && forall i :: 0 <= i < |vs[1..]| ==> BulkTree(vs[1..][i])
  {
    forall i | 0 <= i < |vs[1..]|
      ensures BulkTree(vs[1..][i])
    {
      assert vs[1..][i] == vs[i + 1];
    }
  }

  /** One decoded value, then n - 1 more from where it stopped, make an n-element decode. */
  lemma ReadElemsCons(n: nat, s: Bytes, v: Value, tail: Bytes, vs: seq<Value>, rest: Bytes)
    requires n > 0
    requires Read(s) == Success((v, tail))
    requires ReadElems(n - 1, tail) == Success((vs, rest))
    ensures ReadElems(n, s) == Success(([v] + vs, rest))
  {
    ReadElemsUnfold(n, s);
  }

  /** A decoded array has exactly as many elements as its length line announces. */
  lemma ReadArrayCount(s: Bytes)
    ensures ReadArray(s).Success? ==>
      ReadInteger(s).Success? && |ReadArray(s).value.0.elems| == ReadInteger(s).value.0
  {
  }

  /** A decoded bulk string has exactly as many bytes as its length line announces. */
  lemma ReadBulkLength(s: Bytes)
    ensures ReadBulk(s).Success? ==>
      ReadInteger(s).Success? && |ReadBulk(s).value.0.bulk| == ReadInteger(s).value.0
  {
  }

  /** The element encodings of a concatenation are the concatenated encodings, in order. */
  lemma {:induction false} MarshalSeqAppend(a: seq<Value>, b: seq<Value>)
    ensures MarshalSeq(a + b) == MarshalSeq(a) + MarshalSeq(b)
    decreases |a|
  {
    if |a| > 0 {
      assert (a + b)[1..] == a[1..] + b;
      MarshalSeqAppend(a[1..], b);
    } else {
      assert a + b == b;
    }
  }

  /**
   * The bulk encoding: '$', a first line holding the decimal byte length of
   * the payload and ending in CRLF, then the payload and CRLF.
   */
  lemma BulkEncoding(b: Bytes)
    ensures var h := |Decimal(|b|)| + 3;
      && |Marshal(Bulk(b))| == h + |b| + 2
      && Marshal(Bulk(b))[..h] == [BULK] + Decimal(|b|) + [CR, LF]
      && Marshal(Bulk(b))[h..h + |b|] == b
      && Marshal(Bulk(b))[h + |b|..] == [CR, LF]
    ensures ReadInteger(Marshal(Bulk(b))[1..]) == Success((|b|, b + [CR, LF]))
  {
    var e := Marshal(Bulk(b));
    var header, body := [BULK] + Decimal(|b|) + [CR, LF], b + [CR, LF];
    assert e == header + body by {
      Assoc(header, b, [CR, LF]);
    }
    Halves(header, body);
    Halves(b, [CR, LF]);
    assert e[|header|..][..|b|] == e[|header|..|header| + |b|];
    assert e[|header|..][|b|..] == e[|header| + |b|..];
    DropMarker(BULK, Decimal(|b|), [CR, LF], body);
    ReadIntegerOf(|b|, LF, body);
  }

  /**
   * The array encoding: '*', then a first line holding the decimal element
   * count and ending in CRLF, then the element encodings (MarshalSeqAt: each
   * one in its place).
   */
  lemma ArrayEncoding(vs: seq<Value>)
    ensures var h := |Decimal(|vs|)| + 3;
      && Marshal(Array(vs))[..h] == [ARRAY] + Decimal(|vs|) + [CR, LF]
      && Marshal(Array(vs))[h..] == MarshalSeq(vs)
    ensures ReadInteger(Marshal(Array(vs))[1..]) == Success((|vs|, MarshalSeq(vs)))
  {
    var e := Marshal(Array(vs));
    var d, body := Decimal(|vs|), MarshalSeq(vs);
    assert e == [ARRAY] + d + [CR, LF] + body;
    Halves([ARRAY] + d + [CR, LF], body);
    DropMarker(ARRAY, d, [CR, LF], body);
    ReadIntegerOf(|vs|, LF, body);
  }

  lemma DropMarker(m: byte, a: Bytes, b: Bytes, c: Bytes)
    ensures ([m] + a + b + c)[1..] == a + b + c
  {
  }

  /** The encoding of element i sits between those of the elements before and after it. */
  lemma MarshalSeqAt(vs: seq<Value>, i: nat)
    requires i < |vs|
    ensures MarshalSeq(vs) == MarshalSeq(vs[..i]) + Marshal(vs[i]) + MarshalSeq(vs[i + 1..])
  {
    var a, b := vs[..i], vs[i..];
    assert vs == a + b;
    MarshalSeqAppend(a, b);
    MarshalSeqCons(b);
    assert b[0] == vs[i] && b[1..] == vs[i + 1..];
    Assoc(MarshalSeq(a), Marshal(vs[i]), MarshalSeq(vs[i + 1..]));
  }

  lemma MarshalSeqCons(vs: seq<Value>)
    requires |vs| > 0
    ensures MarshalSeq(vs) == Marshal(vs[0]) + MarshalSeq(vs[1..])
  {
  }

  /**
   * The fixed encodings: simple strings and errors are their marker, the
   * text and CRLF; null is exactly "$-1\r\n"; integers and the empty Value
   * encode to nothing at all.
   */
  lemma FixedEncodings(s: Bytes, n: int)
    ensures Marshal(Str(s)) == [43] + s + [13, 10]
    ensures Marshal(Err(s)) == [45] + s + [13, 10]
    ensures Marshal(Null) == [36, 45, 49, 13, 10]
    ensures Marshal(Int(n)) == [] && Marshal(Empty) == []
  {
  }

  /** Any marker other than '*' and '$' decodes to Empty, with no error, consuming that byte only. */
  lemma UnknownMarker(m: byte, rest: Bytes)
    requires m != ARRAY && m != BULK
    ensures Read([m] + rest) == Success((Empty, rest))
  {
    assert ([m] + rest)[1..] == rest;
  }

  /** So a simple string or an error written by Marshal reads back as Empty, leaving its text unread. */
  lemma SimpleValuesNotReadBack(v: Value, rest: Bytes)
    requires v.Str? || v.Err?
    ensures Read(Marshal(v) + rest) == Success((Empty, Marshal(v)[1..] + rest))
  {
    var s := Marshal(v) + rest;
    assert s == [Marshal(v)[0]] + (Marshal(v)[1..] + rest);
    UnknownMarker(Marshal(v)[0], Marshal(v)[1..] + rest);
  }

  /** And the null Marshal writes is a bulk of length -1, which the decoder refuses. */
  lemma NullNotReadBack(rest: Bytes)
    ensures Read(Marshal(Null) + rest) == Failure(NegativeLength(-1))
  {
    var s := Marshal(Null) + rest;
    assert s[1..] == [MINUS, 49] + [CR, LF] + rest;
    assert NoCR([MINUS, 49]);
    ReadLineOf([MINUS, 49], LF, rest);
    AtoiNegative(1);
    assert [MINUS] + Decimal(1) == [MINUS, 49];
  }

  /** Reading an empty stream is io.EOF. */
  lemma ReadEmpty()
    ensures Read([]) == Failure(EOF)
  {
  }

  /** Continue an array decode that stopped at r with n more elements. */
  function Then(first: Result<(seq<Value>, Bytes), Error>, n: nat): Result<(seq<Value>, Bytes), Error> {
    match first
    case Failure(e) => Failure(e)
    case Success((a, r)) =>
      match ReadElems(n, r)
      case Failure(e) => Failure(e)
      case Success((b, r')) => Success((a + b, r'))
  }

  /**
   * Decoding m + n array elements is decoding m, then n from where the first
   * m stopped; a failure among the first m is the failure of the whole.
   */
  lemma {:induction false} ReadElemsSplit(m: nat, n: nat, s: Bytes)
    ensures ReadElems(m + n, s) == Then(ReadElems(m, s), n)
    decreases m, 1
  {
    if m == 0 {
      assert ReadElems(0, s) == Success(([], s));
      ThenNone(s, n);
    } else if Read(s).Failure? {
      ReadElemsSplitFail(m, n, s);
    } else {
      ReadElemsSplitStep(m, n, s);
    }
  }

  lemma ReadElemsSplitFail(m: nat, n: nat, s: Bytes)
    requires m > 0 && Read(s).Failure?
    ensures ReadElems(m + n, s) == Then(ReadElems(m, s), n)
  {
    ReadElemsUnfold(m + n, s);
    ReadElemsUnfold(m, s);
  }

  /** The inductive step of ReadElemsSplit, once the first value has been read. */
  lemma {:induction false} ReadElemsSplitStep(m: nat, n: nat, s: Bytes)
    requires m > 0 && Read(s).Success?
    ensures ReadElems(m + n, s) == Then(ReadElems(m, s), n)
    decreases m, 0
  {
    var (v, rest) := Read(s).value;
    ReadElemsSplit(m - 1, n, rest);
    var a := ReadElems(m - 1, rest);
    ReadElemsUnfold(m + n, s);
    assert m + n - 1 == (m - 1) + n;
    ThenCons(v, a, n);
    ReadElemsUnfold(m, s);
  }

  lemma ThenNone(s: Bytes, n: nat)
    ensures Then(Success(([], s)), n) == ReadElems(n, s)
  {
    if ReadElems(n, s).Success? {
      var (b, _) := ReadElems(n, s).value;
      assert [] + b == b;
    }
  }

  lemma ThenCons(v: Value, r: Result<(seq<Value>, Bytes), Error>, n: nat)
    ensures Then(Cons(v, r), n) == Cons(v, Then(r, n))
  {
    if r.Success? {
      var (a, _) := r.value;
      if ReadElems(n, r.value.1).Success? {
        var (b, _) := ReadElems(n, r.value.1).value;
        assert [v] + (a + b) == ([v] + a) + b;
      }
    }
  }

  /** One step of the element loop: decode a value, then the remaining n - 1. */
  lemma ReadElemsUnfold(n: nat, s: Bytes)
    requires n > 0
    ensures Read(s).Failure? ==> ReadElems(n, s) == Failure(Read(s).error)
    ensures Read(s).Success? ==> ReadElems(n, s) == Cons(Read(s).value.0, ReadElems(n - 1, Read(s).value.1))
  {
  }

  /** Put one more decoded value in front of an element decode. */
  function Cons(v: Value, r: Result<(seq<Value>, Bytes), Error>): Result<(seq<Value>, Bytes), Error> {
    match r
    case Failure(e) => Failure(e)
    case Success((vs, rest)) => Success(([v] + vs, rest))
  }

  /** If element k of an array fails to decode, the array fails with that same error. */
  lemma {:induction false} ReadElemsFailsAt(n: nat, s: Bytes, k: nat, e: Error)
    requires k < n
    requires ReadElems(k, s).Success?
    requires Read(ReadElems(k, s).value.1) == Failure(e)
    ensures ReadElems(n, s) == Failure(e)
  {
    var r := ReadElems(k, s).value.1;
    assert ReadElems(n - k, r) == Failure(e) by {
      ReadElemsUnfold(n - k, r);
    }
    assert ReadElems(n, s) == Then(ReadElems(k, s), n - k) by {
      ReadElemsSplit(k, n - k, s);
      assert k + (n - k) == n;
    }
  }

  /**
   * The round trip needs values made of bulk strings and arrays: an array
   * holding an Empty element (what a '+', '-' or ':' element decodes to)
   * encodes to a header announcing more elements than follow. With nothing
   * after it, the decode runs out of input.
   */
  lemma EmptyElementBreaksRoundTrip(b: Bytes)
    ensures Read(Marshal(Array([Bulk(b), Empty]))) == Failure(EOF)
  {
    var vs := [Bulk(b), Empty];
    var body := Marshal(Bulk(b));
    assert vs[1..] == [Empty] && [Empty][1..] == [];
    assert MarshalSeq([Empty]) == [];
    assert MarshalSeq(vs) == body + [];
    var e := Marshal(Array(vs));
    assert e == [ARRAY] + Decimal(2) + [CR, LF] + MarshalSeq(vs);
    DropMarker(ARRAY, Decimal(2), [CR, LF], MarshalSeq(vs));
    ReadIntegerOf(2, LF, MarshalSeq(vs));
    RoundTrip(Bulk(b), []);
    ReadElemsUnfold(2, body + []);
    ReadElemsUnfold(1, []);
  }
  /**
   * With a record after it, the array holding an Empty element takes that
   * record as its missing element: its encoding followed by a bulk string's
   * is exactly the encoding of the two-bulk array.
   */
  lemma EmptyElementSwallowsNext(b: Bytes, c: Bytes, rest: Bytes)
    ensures Read(Marshal(Array([Bulk(b), Empty])) + Marshal(Bulk(c)) + rest)
         == Success((Array([Bulk(b), Bulk(c)]), rest))
  {
    var swallowed := Array([Bulk(b), Bulk(c)]);
    assert Marshal(Array([Bulk(b), Empty])) + Marshal(Bulk(c)) == Marshal(swallowed) by {
      EmptyElementEncoding(b, c);
    }
    assert BulkTree(swallowed) by {
      assert swallowed.elems[0] == Bulk(b) && swallowed.elems[1] == Bulk(c);
    }
    RoundTrip(swallowed, rest);
  }

  /**
   * Inside an array, a simple value reads as Empty and consumes only its
   * marker, so the bytes after it are misread: the encoding of
   * [Empty, Str("abc")] decodes as [Empty, Empty] and leaves "bc\r\n".
   */
  lemma SimpleElementMisread(c: byte, t: Bytes)
    requires c != ARRAY && c != BULK
    ensures Read(Marshal(Array([Empty, Str([c] + t)])))
         == Success((Array([Empty, Empty]), t + [CR, LF]))
  {
    var str := [STRING, c] + (t + [CR, LF]);
    assert Marshal(Array([Empty, Str([c] + t)])) == [ARRAY] + Decimal(2) + [CR, LF] + str by {
      EmptyThenStrEncoding(c, t);
    }
    TwoSimpleElements(STRING, c, t + [CR, LF]);
    ReadArrayHeader(2, str);
  }

  lemma EmptyThenStrEncoding(c: byte, t: Bytes)
    ensures MarshalSeq([Empty, Str([c] + t)]) == [STRING, c] + (t + [CR, LF])
  {
    var v := Str([c] + t);
    assert [Empty, v][1..] == [v];
    assert [v][1..] == [];
    assert MarshalSeq([v]) == Marshal(v) + MarshalSeq([]);
    assert MarshalSeq([Empty, v]) == Marshal(Empty) + MarshalSeq([v]);
    assert Marshal(v) == [STRING] + ([c] + t) + [CR, LF];
  }

  /** Two bytes that are neither '*' nor '$' read as two Empty elements of one byte each. */
  lemma TwoSimpleElements(m1: byte, m2: byte, rest: Bytes)
    requires m1 != ARRAY && m1 != BULK && m2 != ARRAY && m2 != BULK
    ensures ReadElems(2, [m1, m2] + rest) == Success(([Empty, Empty], rest))
  {
    var s := [m1, m2] + rest;
    assert s[1..] == [m2] + rest && ([m2] + rest)[1..] == rest;
    assert ReadElems(1, [m2] + rest) == Success(([Empty], rest)) by {
      ReadElemsUnfold(1, [m2] + rest);
      assert [Empty] + [] == [Empty];
    }
    ReadElemsUnfold(2, s);
    assert [Empty] + [Empty] == [Empty, Empty];
  }

  /** After an array header for n elements, the decode is the decode of n elements. */
  lemma ReadArrayHeader(n: nat, body: Bytes)
    ensures var r := ReadElems(n, body);
      Read([ARRAY] + Decimal(n) + [CR, LF] + body)
      == if r.Success? then Success((Array(r.value.0), r.value.1)) else Failure(r.error)
  {
    DropMarker(ARRAY, Decimal(n), [CR, LF], body);
    ReadIntegerOf(n, LF, body);
  }


  /** The bytes of ['b', Empty] then those of 'c' are the bytes of ['b', 'c']. */
  lemma EmptyElementEncoding(b: Bytes, c: Bytes)
    ensures Marshal(Array([Bulk(b), Empty])) + Marshal(Bulk(c)) == Marshal(Array([Bulk(b), Bulk(c)]))
  {
    var mb, mc := Marshal(Bulk(b)), Marshal(Bulk(c));
    var h := [ARRAY] + Decimal(2) + [CR, LF];
    assert MarshalSeq([Empty]) == [] by {
      assert [Empty][1..] == [];
    }
    assert MarshalSeq([Bulk(c)]) == mc by {
      assert [Bulk(c)][1..] == [];
    }
    assert MarshalSeq([Bulk(b), Empty]) == mb by {
      assert [Bulk(b), Empty][1..] == [Empty];
    }
    assert MarshalSeq([Bulk(b), Bulk(c)]) == mb + mc by {
      assert [Bulk(b), Bulk(c)][1..] == [Bulk(c)];
    }
    assert Marshal(Array([Bulk(b), Empty])) == h + mb;
    assert Marshal(Array([Bulk(b), Bulk(c)])) == h + (mb + mc);
    Assoc(h, mb, mc);
  }


  lemma SuffixTrans(r: Bytes, t: Bytes, s: Bytes)
    requires IsSuffix(r, t) && IsSuffix(t, s)
    ensures IsSuffix(r, s)
  {
    assert s[|s| - |r|..] == s[|s| - |t|..][|t| - |r|..];
  }

  /** The decoder only consumes: what it leaves is the input without a prefix. */
  lemma {:induction false} ReadLeavesSuffix(s: Bytes)
    ensures Read(s).Success? ==> IsSuffix(Read(s).value.1, s)
    decreases |s|, 1
  {
    if |s| > 0 {
      var t := s[1..];
      assert IsSuffix(t, s);
      if s[0] == ARRAY {
        ReadArrayLeavesSuffix(t);
        if ReadArray(t).Success? { SuffixTrans(ReadArray(t).value.1, t, s); }
      } else if s[0] == BULK {
        ReadBulkLeavesSuffix(t);
        if ReadBulk(t).Success? { SuffixTrans(ReadBulk(t).value.1, t, s); }
      }
    }
  }

  lemma {:induction false} ReadArrayLeavesSuffix(s: Bytes)
    ensures ReadArray(s).Success? ==> IsSuffix(ReadArray(s).value.1, s)
    decreases |s|, 0
  {
    var h := ReadInteger(s);
    if h.Success? && h.value.0 >= 0 {
      var (n, rest) := h.value;
      ReadElemsLeavesSuffix(n, rest);
      if ReadElems(n, rest).Success? { SuffixTrans(ReadElems(n, rest).value.1, rest, s); }
    }
  }

  lemma {:induction false} ReadElemsLeavesSuffix(n: nat, s: Bytes)
    ensures ReadElems(n, s).Success? ==> IsSuffix(ReadElems(n, s).value.1, s)
    decreases |s|, 2, n
  {
    if n > 0 {
      ReadLeavesSuffix(s);
      if Read(s).Success? {
        var rest := Read(s).value.1;
        ReadElemsLeavesSuffix(n - 1, rest);
        ElemsSuffixStep(n, s, rest);
      } else {
        ReadElemsUnfold(n, s);
      }
    }
  }

  /** The step of ReadElemsLeavesSuffix: a suffix of what the first element left is a suffix of the input. */
  lemma ElemsSuffixStep(n: nat, s: Bytes, rest: Bytes)
    requires n > 0 && Read(s).Success? && Read(s).value.1 == rest && IsSuffix(rest, s)
    requires ReadElems(n - 1, rest).Success? ==> IsSuffix(ReadElems(n - 1, rest).value.1, rest)
    ensures ReadElems(n, s).Success? ==> IsSuffix(ReadElems(n, s).value.1, s)
  {
    ReadElemsUnfold(n, s);
    var r := ReadElems(n - 1, rest);
    if r.Success? {
      assert ReadElems(n, s).value.1 == r.value.1;
      SuffixTrans(r.value.1, rest, s);
    }
  }

  lemma ReadBulkLeavesSuffix(s: Bytes)
    ensures ReadBulk(s).Success? ==> IsSuffix(ReadBulk(s).value.1, s)
  {
    var h := ReadInteger(s);
    if h.Success? && h.value.0 >= 0 {
      var (n, rest) := h.value;
      assert IsSuffix(rest, s);
      SuffixTrans(PayloadTail(rest, n), rest, s);
    }
  }
}

=== FILE: Seqs.dfy ===
/** Generic facts about sequence concatenation and slicing, stated over plain variables. */
module Seqs {

  lemma Assoc<T>(a: seq<T>, b: seq<T>, c: seq<T>)
    ensures a + b + c == a + (b + c)
  {
  }

  /** The two halves of a concatenation are recovered by slicing at the join. */
  lemma Halves<T>(a: seq<T>, b: seq<T>)
    ensures (a + b)[..|a|] == a
    ensures (a + b)[|a|..] == b
  {
  }
}

=== FILE: Server.dfy ===
/**
 * The request handling of main.go: what one decoded request does (reply,
 * log append, handler call), the per-connection loop over a byte stream,
 * and the replay callback run at startup. The command table is abstract.
 */
module Server {
  import opened Wrappers
  import opened Text
  import Resp
  import Aof
  import opened RespProperties
  import opened Seqs

  /** The two command names whose requests are written to the log. */
  const SET: Bytes := [83, 69, 84]         // "SET"
  const HSET: Bytes := [72, 83, 69, 84]    // "HSET"

  /** The reply to an unknown command: an empty simple string, "+\r\n". */
  const UNKNOWN_REPLY: Bytes := [43, 13, 10]

  /**
   * The command table: the names it knows, and for those one handler taking
   * the arguments and the store to a reply and a new store. The store and
   * the handlers are not part of this model.
   */
  datatype Registry<!S> = Registry(known: set<Bytes>, run: (Bytes, seq<Resp.Value>, S) -> (Resp.Value, S))

  /** A request the loop acts on: an array with at least one element. */
  predicate IsCommand(v: Resp.Value) {
    v.Array? && |v.elems| > 0
  }

  /** Go's bulk field: the payload of a bulk string, "" for every other variant. */
  function BulkField(v: Resp.Value): Bytes {
    if v.Bulk? then v.bulk else []
  }

  /** The command name: element 0's bulk field, upper-cased. */
  function Name(v: Resp.Value): (r: Bytes)
    requires IsCommand(v)
    ensures !v.elems[0].Bulk? ==> r == []
    ensures |r| == |BulkField(v.elems[0])| && ToUpper(r) == r
    ensures forall i :: 0 <= i < |r| ==>
      var b := BulkField(v.elems[0])[i];
      r[i] == b || (97 <= b <= 122 && r[i] == b - 32)
  {
    ToUpper(BulkField(v.elems[0]))
  }

  /** The arguments: the elements after the first, in order. */
  function Args(v: Resp.Value): (r: seq<Resp.Value>)
    requires IsCommand(v)
    ensures [v.elems[0]] + r == v.elems
  {
    v.elems[1..]
  }

  /** Command names are matched without regard to case: a request naming "set" is a SET request. */
  lemma LowerCaseSet(args: seq<Resp.Value>)
    ensures IsCommand(Resp.Array([Resp.Bulk([115, 101, 116])] + args))
    ensures Name(Resp.Array([Resp.Bulk([115, 101, 116])] + args)) == SET
    ensures Args(Resp.Array([Resp.Bulk([115, 101, 116])] + args)) == args
  {
    var v := Resp.Array([Resp.Bulk([115, 101, 116])] + args);
    assert v.elems[0] == Resp.Bulk([115, 101, 116]);
    assert ToUpper([115, 101, 116]) == SET;
    assert v.elems[1..] == args;
  }

  predicate Persisted(name: Bytes) {
    name == SET || name == HSET
  }

  /** What handling a request does, in the order it happens. */
  datatype Effect =
    | Append(record: Resp.Value, failed: bool)   // aof.Write of the request, and whether it failed
    | Run(name: Bytes, args: seq<Resp.Value>)    // the handler called, with its arguments
    | Reply(bytes: Bytes)                        // Writer.Write of a reply: its encoding

  /** The records of the log appends among some effects, in order. */
  function Appends(es: seq<Effect>): seq<Resp.Value> {
    if |es| == 0 then []
    else (if es[0].Append? then [es[0].record] else []) + Appends(es[1..])
  }

  /** The records of the appends that succeeded, in order. */
  function Logged(es: seq<Effect>): seq<Resp.Value> {
    if |es| == 0 then []
    else (if es[0].Append? && !es[0].failed then [es[0].record] else []) + Logged(es[1..])
  }

  /** The handler calls among some effects, in order. */
  function Runs(es: seq<Effect>): seq<Effect> {
    if |es| == 0 then []
    else (if es[0].Run? then [es[0]] else []) + Runs(es[1..])
  }

  /** The bytes written back to the client. */
  function Output(es: seq<Effect>): Bytes {
    if |es| == 0 then [] else (if es[0].Reply? then es[0].bytes else []) + Output(es[1..])
  }

  datatype Step<S> = Step(effects: seq<Effect>, log: Aof.Log, store: S)

  /**
   * One iteration of handleConn after a successful decode. Requests that are
   * not non-empty arrays are skipped; unknown names get the empty simple
   * string; "SET" and "HSET" are appended to the log before their handler
   * runs, and a failing append does not stop the handler or the reply.
   */
  function Handle<S>(v: Resp.Value, reg: Registry<S>, log: Aof.Log, store: S, fault: bool): (r: Step<S>)
    ensures !IsCommand(v) ==> r == Step([], log, store)
    ensures IsCommand(v) && Name(v) !in reg.known ==> r == Step([Reply(UNKNOWN_REPLY)], log, store)
    ensures IsCommand(v) && Name(v) in reg.known ==>
      && Runs(r.effects) == [Run(Name(v), Args(v))]
      && Output(r.effects) == Resp.Marshal(reg.run(Name(v), Args(v), store).0)
      && r.store == reg.run(Name(v), Args(v), store).1
    ensures Appends(r.effects) ==
      (if IsCommand(v) && Name(v) in reg.known && Persisted(Name(v)) then [v] else [])
    ensures forall i, j :: 0 <= i < |r.effects| && 0 <= j < |r.effects| && r.effects[i].Append? && r.effects[j].Run? ==> i < j
    ensures Logged(r.effects) ==
      (if IsCommand(v) && Name(v) in reg.known && Persisted(Name(v)) && log.open && !fault then [v] else [])
    ensures r.log.open == log.open
    ensures r.log.content == log.content + Resp.MarshalSeq(Logged(r.effects))
  {
    if !IsCommand(v) then Step([], log, store)
    else
      var name := Name(v);
      if name !in reg.known then
        assert Resp.Marshal(Resp.Str([])) == UNKNOWN_REPLY;
        Step([Reply(Resp.Marshal(Resp.Str([])))], log, store)
      else
        var (result, store') := reg.run(name, Args(v), store);
        var tail := [Run(name, Args(v)), Reply(Resp.Marshal(result))];
        TailFilters(name, Args(v), Resp.Marshal(result));
        if Persisted(name) then
          var w := Aof.Write(log, v, fault);
          var es := [Append(v, w.err.Some?)] + tail;
          FiltersCons(Append(v, w.err.Some?), tail);
          assert Resp.MarshalSeq([v]) == Resp.Marshal(v) + Resp.MarshalSeq([]);
          assert log.content + [] == log.content;
          Step(es, w.log, store')
        else
          assert log.content + [] == log.content;
          Step(tail, log, store')
  }

  /** How the effect filters see one effect put in front of others. */
  lemma FiltersCons(e: Effect, es: seq<Effect>)
    ensures Appends([e] + es) == (if e.Append? then [e.record] else []) + Appends(es)
    ensures Logged([e] + es) == (if e.Append? && !e.failed then [e.record] else []) + Logged(es)
    ensures Runs([e] + es) == (if e.Run? then [e] else []) + Runs(es)
    ensures Output([e] + es) == (if e.Reply? then e.bytes else []) + Output(es)
  {
    assert ([e] + es)[0] == e;
    assert ([e] + es)[1..] == es;
  }

  /** The effects of a known command after any log append: its handler call, then its reply. */
  lemma TailFilters(name: Bytes, args: seq<Resp.Value>, bytes: Bytes)
    ensures Appends([Run(name, args), Reply(bytes)]) == []
    ensures Logged([Run(name, args), Reply(bytes)]) == []
    ensures Runs([Run(name, args), Reply(bytes)]) == [Run(name, args)]
    ensures Output([Run(name, args), Reply(bytes)]) == bytes
  {
    assert [Run(name, args), Reply(bytes)] == [Run(name, args)] + ([Reply(bytes)] + []);
    FiltersCons(Reply(bytes), []);
    FiltersCons(Run(name, args), [Reply(bytes)]);
    assert bytes + [] == bytes;
  }

  datatype Session<S> = Session(effects: seq<Effect>, log: Aof.Log, store: S)

  /**
   * handleConn over the bytes a client sends: decode a request, handle it,
   * and go on with what is left, until a decode fails and the connection is
   * closed. fault says whether the operating system rejects the log write
   * of the request that starts the given unread input; the unread input
   * shrinks at every request, so it tells the requests of one connection
   * apart and any pattern of failing and succeeding writes can be given.
   */
  function Serve<S>(input: Bytes, reg: Registry<S>, log: Aof.Log, store: S, fault: Bytes -> bool): (r: Session<S>)
    ensures r.log.open == log.open
    ensures r.log.content == log.content + Resp.MarshalSeq(Logged(r.effects))
    decreases |input|
  {
    match Resp.Read(input)
    case Failure(_) =>
      assert log.content + [] == log.content;
      Session([], log, store)
    case Success((v, rest)) =>
      var step := Handle(v, reg, log, store, fault(input));
      var tail := Serve(rest, reg, step.log, step.store, fault);
      LogGrows(log.content, step.effects, step.log.content, tail.effects, tail.log.content);
      Session(step.effects + tail.effects, tail.log, tail.store)
  }

  /** Log growth composes: what two steps logged, in order, is what their effects logged. */
  lemma LogGrows(c0: Bytes, a: seq<Effect>, c1: Bytes, b: seq<Effect>, c2: Bytes)
    requires c1 == c0 + Resp.MarshalSeq(Logged(a))
    requires c2 == c1 + Resp.MarshalSeq(Logged(b))
    ensures c2 == c0 + Resp.MarshalSeq(Logged(a + b))
  {
    LoggedConcat(a, b);
    MarshalSeqAppend(Logged(a), Logged(b));
    Assoc(c0, Resp.MarshalSeq(Logged(a)), Resp.MarshalSeq(Logged(b)));
  }

  /** Every record a session appends is a request for SET or HSET, known to the table. */
  lemma {:induction false} ServeAppendsPersisted<S>(input: Bytes, reg: Registry<S>, log: Aof.Log, store: S, fault: Bytes -> bool)
    ensures var appended := Appends(Serve(input, reg, log, store, fault).effects);
      forall i :: 0 <= i < |appended| ==> PersistedCommand(appended[i], reg)
    decreases |input|
  {
    match Resp.Read(input)
    case Failure(_) =>
    case Success((v, rest)) =>
      var step := Handle(v, reg, log, store, fault(input));
      ServeAppends(input, reg, log, store, fault);
      HandleAppendsPersisted(v, reg, log, store, fault(input));
      ServeAppendsPersisted(rest, reg, step.log, step.store, fault);
      AllPersistedConcat(Appends(step.effects), Appends(Serve(rest, reg, step.log, step.store, fault).effects), reg);
  }

  /** The appends of a session are those of its first step, then those of the rest. */
  lemma ServeAppends<S>(input: Bytes, reg: Registry<S>, log: Aof.Log, store: S, fault: Bytes -> bool)
    requires Resp.Read(input).Success?
    ensures var (v, rest) := Resp.Read(input).value;
      var step := Handle(v, reg, log, store, fault(input));
      Appends(Serve(input, reg, log, store, fault).effects)
        == Appends(step.effects) + Appends(Serve(rest, reg, step.log, step.store, fault).effects)
  {
    var (v, rest) := Resp.Read(input).value;
    var step := Handle(v, reg, log, store, fault(input));
    AppendsConcat(step.effects, Serve(rest, reg, step.log, step.store, fault).effects);
  }

  /** One step appends nothing but a known SET or HSET request. */
  lemma HandleAppendsPersisted<S>(v: Resp.Value, reg: Registry<S>, log: Aof.Log, store: S, fault: bool)
    ensures var first := Appends(Handle(v, reg, log, store, fault).effects);
      forall i :: 0 <= i < |first| ==> PersistedCommand(first[i], reg)
  {
  }

  /** A request for SET or HSET, known to the table: what the log may hold. */
  predicate PersistedCommand<S>(a: Resp.Value, reg: Registry<S>) {
    IsCommand(a) && Name(a) in reg.known && Persisted(Name(a))
  }

  lemma AllPersistedConcat<S>(a: seq<Resp.Value>, b: seq<Resp.Value>, reg: Registry<S>)
    requires forall i :: 0 <= i < |a| ==> PersistedCommand(a[i], reg)
    requires forall i :: 0 <= i < |b| ==> PersistedCommand(b[i], reg)
    ensures forall i :: 0 <= i < |a + b| ==> PersistedCommand((a + b)[i], reg)
  {
    forall i | 0 <= i < |a + b|
      ensures PersistedCommand((a + b)[i], reg)
    {
      if i >= |a| {
        assert (a + b)[i] == b[i - |a|];
      }
    }
  }

  lemma {:induction false} LoggedConcat(a: seq<Effect>, b: seq<Effect>)
    ensures Logged(a + b) == Logged(a) + Logged(b)
    decreases |a|
  {
    if |a| == 0 {
      assert a + b == b;
    } else {
      assert (a + b)[0] == a[0] && (a + b)[1..] == a[1..] + b;
      LoggedConcat(a[1..], b);
      Assoc((if a[0].Append? && !a[0].failed then [a[0].record] else []), Logged(a[1..]), Logged(b));
    }
  }

  lemma {:induction false} AppendsConcat(a: seq<Effect>, b: seq<Effect>)
    ensures Appends(a + b) == Appends(a) + Appends(b)
    decreases |a|
  {
    if |a| == 0 {
      assert a + b == b;
    } else {
      assert (a + b)[0] == a[0] && (a + b)[1..] == a[1..] + b;
      AppendsConcat(a[1..], b);
      Assoc((if a[0].Append? then [a[0].record] else []), Appends(a[1..]), Appends(b));
    }
  }

  /** A decode error ends the loop: nothing is written, logged or run. */
  lemma DecodeErrorCloses<S>(input: Bytes, reg: Registry<S>, log: Aof.Log, store: S, fault: Bytes -> bool)
    requires Resp.Read(input).Failure?
    ensures Serve(input, reg, log, store, fault) == Session([], log, store)
  {
  }

  /**
   * A request that is not a non-empty array (a bulk string, an empty array)
   * is skipped without reply or log record, and the loop goes on with the
   * next request.
   */
  lemma SkipsMalformed<S>(v: Resp.Value, rest: Bytes, reg: Registry<S>, log: Aof.Log, store: S, fault: Bytes -> bool)
    requires BulkTree(v) && !IsCommand(v)
    ensures Serve(Resp.Marshal(v) + rest, reg, log, store, fault) == Serve(rest, reg, log, store, fault)
  {
    RoundTrip(v, rest);
    assert [] + Serve(rest, reg, log, store, fault).effects == Serve(rest, reg, log, store, fault).effects;
  }

  /** An unknown command gets "+\r\n" and nothing else, and the loop goes on. */
  lemma UnknownCommand<S>(v: Resp.Value, rest: Bytes, reg: Registry<S>, log: Aof.Log, store: S, fault: Bytes -> bool)
    requires BulkTree(v) && IsCommand(v) && Name(v) !in reg.known
    ensures Serve(Resp.Marshal(v) + rest, reg, log, store, fault).effects
         == [Reply(UNKNOWN_REPLY)] + Serve(rest, reg, log, store, fault).effects
  {
    RoundTrip(v, rest);
  }

  /**
   * The unknown-command example: "*2\r\n$4\r\nNOPE\r\n$1\r\nX\r\n" gets "+\r\n",
   * and the connection reads on.
   */
  lemma UnknownCommandExample<S>(rest: Bytes, reg: Registry<S>, log: Aof.Log, store: S, fault: Bytes -> bool)
    requires [78, 79, 80, 69] !in reg.known
    ensures Serve([42, 50, 13, 10, 36, 52, 13, 10, 78, 79, 80, 69, 13, 10, 36, 49, 13, 10, 88, 13, 10] + rest,
                  reg, log, store, fault).effects
         == [Reply(UNKNOWN_REPLY)] + Serve(rest, reg, log, store, fault).effects
  {
    var v := NopeRequest();
    NopeEncoding();
    UnknownCommand(v, rest, reg, log, store, fault);
  }

  /** The request of the unknown-command example: the array ["NOPE", "X"] of bulk strings. */
  function NopeRequest(): (v: Resp.Value)
    ensures BulkTree(v) && IsCommand(v)
  {
    Resp.Array([Resp.Bulk([78, 79, 80, 69]), Resp.Bulk([88])])
  }

  lemma NopeEncoding()
    ensures Resp.Marshal(NopeRequest()) == [42, 50, 13, 10, 36, 52, 13, 10, 78, 79, 80, 69, 13, 10, 36, 49, 13, 10, 88, 13, 10]
    ensures Name(NopeRequest()) == [78, 79, 80, 69]
  {
    var v := NopeRequest();
    var nope, x := v.elems[0], v.elems[1];
    var header: Bytes := [42, 50, 13, 10];
    var e1: Bytes := [36, 52, 13, 10, 78, 79, 80, 69, 13, 10];
    var e2: Bytes := [36, 49, 13, 10, 88, 13, 10];
    assert Resp.Marshal(v) == header + Resp.MarshalSeq(v.elems) by {
      assert Decimal(2) == [50];
    }
    assert Resp.MarshalSeq(v.elems) == e1 + e2 by {
      assert Resp.Marshal(nope) == e1 by {
        assert Decimal(4) == [52];
      }
      assert Resp.MarshalSeq(v.elems[1..]) == e2 by {
        assert v.elems[1..] == [x];
        MarshalSeqOne(x);
        assert Decimal(1) == [49];
      }
    }
    assert ToUpper([78, 79, 80, 69]) == [78, 79, 80, 69];
  }

  lemma MarshalSeqOne(v: Resp.Value)
    ensures Resp.MarshalSeq([v]) == Resp.Marshal(v)
  {
    assert [v][1..] == [];
  }

  /**
   * A known command's request reaches the log exactly once when its name is
   * "SET" or "HSET", and not at all otherwise; then the loop goes on.
   */
  lemma PersistedAppendsOnce<S>(v: Resp.Value, rest: Bytes, reg: Registry<S>, log: Aof.Log, store: S, fault: Bytes -> bool)
    requires BulkTree(v) && IsCommand(v) && Name(v) in reg.known
    ensures var step := Handle(v, reg, log, store, fault(Resp.Marshal(v) + rest));
      Appends(Serve(Resp.Marshal(v) + rest, reg, log, store, fault).effects)
      == (if Persisted(Name(v)) then [v] else []) + Appends(Serve(rest, reg, step.log, step.store, fault).effects)
  {
    RoundTrip(v, rest);
    var step := Handle(v, reg, log, store, fault(Resp.Marshal(v) + rest));
    AppendsConcat(step.effects, Serve(rest, reg, step.log, step.store, fault).effects);
  }

  /**
   * A failed log write does not stick: when the first of two SET or HSET
   * requests meets a write error and the second does not, the log ends up
   * holding exactly the second request.
   */
  lemma TransientFault<S>(a: Resp.Value, b: Resp.Value, reg: Registry<S>, log: Aof.Log, store: S, fault: Bytes -> bool)
    requires BulkTree(a) && IsCommand(a) && Name(a) in reg.known && Persisted(Name(a))
    requires BulkTree(b) && IsCommand(b) && Name(b) in reg.known && Persisted(Name(b))
    requires log.open && fault(Resp.Marshal(a) + Resp.Marshal(b)) && !fault(Resp.Marshal(b))
    ensures Logged(Serve(Resp.Marshal(a) + Resp.Marshal(b), reg, log, store, fault).effects) == [b]
    ensures Serve(Resp.Marshal(a) + Resp.Marshal(b), reg, log, store, fault).log.content
         == log.content + Resp.Marshal(b)
  {
    var rest := Resp.Marshal(b);
    var first := Handle(a, reg, log, store, true);
    var second := Handle(b, reg, first.log, first.store, false);
    var tail := Serve(rest, reg, first.log, first.store, fault);
    assert Logged(tail.effects) == [b] by {
      assert rest + [] == rest;
      RoundTrip(b, []);
      assert Serve([], reg, second.log, second.store, fault) == Session([], second.log, second.store) by {
        ReadEmpty();
      }
      assert tail.effects == second.effects + [];
      assert second.effects + [] == second.effects;
    }
    assert Serve(Resp.Marshal(a) + rest, reg, log, store, fault).effects == first.effects + tail.effects by {
      RoundTrip(a, rest);
    }
    LoggedConcat(first.effects, tail.effects);
    assert [] + [b] == [b];
    MarshalSeqOne(b);
  }

  /** The handler and the reply do not depend on whether the log write failed. */
  lemma WriteFaultIgnored<S>(v: Resp.Value, reg: Registry<S>, log: Aof.Log, store: S)
    ensures Runs(Handle(v, reg, log, store, true).effects) == Runs(Handle(v, reg, log, store, false).effects)
    ensures Output(Handle(v, reg, log, store, true).effects) == Output(Handle(v, reg, log, store, false).effects)
    ensures Handle(v, reg, log, store, true).store == Handle(v, reg, log, store, false).store
  {
  }

  /**
   * The replay callback: the same name and arguments and the same lookup as
   * the live path, but no log write. Go panics on a record that is not a
   * non-empty array, and on an unknown name (it calls Error on a nil error).
   */
  function ReplayCallback<S>(v: Resp.Value, reg: Registry<S>, store: S): (r: S)
    requires IsCommand(v) && Name(v) in reg.known
    ensures forall log, fault :: r == Handle(v, reg, log, store, fault).store
  {
    reg.run(Name(v), Args(v), store).1
  }

  /** Replaying a known command leaves the store the live path leaves, and runs the same handler call. */
  lemma ReplayMatchesLive<S>(v: Resp.Value, reg: Registry<S>, log: Aof.Log, store: S, fault: bool)
    requires IsCommand(v) && Name(v) in reg.known
    ensures ReplayCallback(v, reg, store) == Handle(v, reg, log, store, fault).store
    ensures Runs(Handle(v, reg, log, store, fault).effects) == [Run(Name(v), Args(v))]
  {
  }

  predicate Replayable<S>(vs: seq<Resp.Value>, reg: Registry<S>) {
    forall i :: 0 <= i < |vs| ==> IsCommand(vs[i]) && Name(vs[i]) in reg.known
  }

  /** The callback applied to each delivered record in turn. */
  function ApplyAll<S>(vs: seq<Resp.Value>, reg: Registry<S>, store: S): S
    requires Replayable(vs, reg)
    decreases |vs|
  {
    if |vs| == 0 then store else ApplyAll(vs[1..], reg, ReplayCallback(vs[0], reg, store))
  }

  /** Startup: aof.Read with the replay callback. main ignores the error aof.Read returns. */
  function Startup<S>(log: Aof.Log, reg: Registry<S>, store: S): (r: S)
    requires Replayable(Aof.Read(log).delivered, reg)
    ensures Aof.Read(log).delivered == [] ==> r == store
    ensures Aof.Read(log).delivered != [] ==> r == ReplayCallback(Aof.Read(log).delivered[0], reg, store)
  {
    ApplyAtMostOne(Aof.Read(log).delivered, reg, store);
    ApplyAll(Aof.Read(log).delivered, reg, store)
  }

  /** Applying the callback to at most one record: no call, or that one call. */
  lemma ApplyAtMostOne<S>(vs: seq<Resp.Value>, reg: Registry<S>, store: S)
    requires Replayable(vs, reg) && |vs| <= 1
    ensures vs == [] ==> ApplyAll(vs, reg, store) == store
    ensures vs != [] ==> ApplyAll(vs, reg, store) == ReplayCallback(vs[0], reg, store)
  {
    if vs != [] {
      assert vs == [vs[0]];
      ApplyOne(vs[0], reg, store);
    }
  }

  /** A log holding one logged request replays to the store the live request left. */
  lemma StartupReplaysOne<S>(v: Resp.Value, reg: Registry<S>, store: S)
    requires BulkTree(v) && IsCommand(v) && Name(v) in reg.known && Persisted(Name(v))
    ensures Replayable(Aof.Read(Handle(v, reg, Aof.Log([], true), store, false).log).delivered, reg)
    ensures Startup(Handle(v, reg, Aof.Log([], true), store, false).log, reg, store)
         == Handle(v, reg, Aof.Log([], true), store, false).store
  {
    var step := Handle(v, reg, Aof.Log([], true), store, false);
    assert step.log.content == Resp.Marshal(v) + [];
    RoundTrip(v, []);
    assert Aof.Read(step.log).delivered == [v];
    ApplyOne(v, reg, store);
  }

  /**
   * With two or more records in the log, startup applies only the first:
   * the state the later ones built is not restored.
   */
  lemma StartupAppliesOnlyFirst<S>(vs: seq<Resp.Value>, reg: Registry<S>, store: S)
    requires |vs| >= 2 && Replayable(vs, reg)
    requires forall i :: 0 <= i < |vs| ==> BulkTree(vs[i])
    ensures Replayable(Aof.Read(Aof.WriteAll(Aof.Log([], true), vs)).delivered, reg)
    ensures Startup(Aof.WriteAll(Aof.Log([], true), vs), reg, store) == ReplayCallback(vs[0], reg, store)
  {
    var log := Aof.WriteAll(Aof.Log([], true), vs);
    assert Aof.Read(log).delivered == [vs[0]] by {
      Aof.ReadDeliversOnlyFirst(vs);
    }
    ApplyOne(vs[0], reg, store);
  }

  /** Applying the callback to a single record is one callback call. */
  lemma ApplyOne<S>(v: Resp.Value, reg: Registry<S>, store: S)
    requires IsCommand(v) && Name(v) in reg.known
    ensures ApplyAll([v], reg, store) == ReplayCallback(v, reg, store)
  {
    assert [v][1..] == [];
  }

  /** Every successful append is an append. */
  lemma {:induction false} LoggedAreAppends(es: seq<Effect>)
    ensures forall i :: 0 <= i < |Logged(es)| ==> Logged(es)[i] in Appends(es)
    decreases |es|
  {
    if |es| > 0 {
      LoggedAreAppends(es[1..]);
    }
  }

  /**
   * From a session to the next startup: if a session on an empty log logged
   * at least one request, and its logged requests are made of bulk strings
   * and arrays, startup replays exactly the first of them.
   */
  lemma SessionThenStartup<S>(input: Bytes, reg: Registry<S>, store: S, fault: Bytes -> bool, store0: S)
    ensures var r := Serve(input, reg, Aof.Log([], true), store, fault);
      (&& |Logged(r.effects)| >= 1
       && forall i :: 0 <= i < |Logged(r.effects)| ==> BulkTree(Logged(r.effects)[i]))
      ==>
      (&& Replayable(Aof.Read(r.log).delivered, reg)
       && Aof.Read(r.log).delivered == [Logged(r.effects)[0]]
       && Startup(r.log, reg, store0) == ReplayCallback(Logged(r.effects)[0], reg, store0))
  {
    var r := Serve(input, reg, Aof.Log([], true), store, fault);
    var recs := Logged(r.effects);
    if |recs| == 0 || exists i :: 0 <= i < |recs| && !BulkTree(recs[i]) {
      return;
    }
    var first := recs[0];
    assert Aof.Read(r.log).delivered == [first] by {
      var tail := Resp.MarshalSeq(recs[1..]);
      assert r.log.open;
      assert r.log.content == Resp.Marshal(first) + tail by {
        assert r.log.content == [] + Resp.MarshalSeq(recs);
      }
      RoundTrip(first, tail);
    }
    assert IsCommand(first) && Name(first) in reg.known by {
      LoggedAreAppends(r.effects);
      ServeAppendsPersisted(input, reg, Aof.Log([], true), store, fault);
      assert first in Appends(r.effects);
    }
    ApplyOne(recs[0], reg, store0);
  }
}

=== FILE: Text.dfy ===
/**
 * Bytes and the three library routines the core leans on: strconv.Itoa for
 * non-negative lengths, strconv.Atoi for length lines, and strings.ToUpper
 * restricted to ASCII.
 */
module Text {
  import opened Wrappers

  newtype byte = b: int | 0 <= b < 256

  type Bytes = seq<byte>

  const CR: byte := 13
  const LF: byte := 10
  const PLUS: byte := 43   // '+'
  const MINUS: byte := 45  // '-'
  const ZERO: byte := 48   // '0'

  predicate IsDigit(b: byte) {
    48 <= b <= 57
  }

  predicate AllDigits(s: Bytes) {
    forall i :: 0 <= i < |s| ==> IsDigit(s[i])
  }

  /** The number a non-empty run of decimal digits denotes (most significant first). */
  function DigitsValue(s: Bytes): nat
    requires AllDigits(s)
    decreases |s|
  {
    if |s| == 0 then 0 else DigitsValue(s[..|s| - 1]) * 10 + (s[|s| - 1] as int - 48)
  }

  /** strconv.Itoa on a non-negative int: the shortest decimal spelling of n. */
  function Decimal(n: nat): (r: Bytes)
    ensures |r| >= 1 && AllDigits(r)
    ensures DigitsValue(r) == n
    ensures r[0] == ZERO ==> r == [ZERO]
    decreases n
  {
    if n < 10 then [(48 + n) as byte]
    else
      var r := Decimal(n / 10) + [(48 + n % 10) as byte];
      assert r[..|r| - 1] == Decimal(n / 10);
      r
  }

  /**
   * strconv.Atoi: an optional sign followed by at least one decimal digit;
   * anything else is a syntax error (None). The range check on 64-bit
   * overflow is not modelled.
   */
  function Atoi(s: Bytes): (r: Option<int>)
    ensures r.Some? <==>
      && |s| >= 1
      && (IsDigit(s[0]) || ((s[0] == PLUS || s[0] == MINUS) && |s| >= 2))
      && forall i :: 1 <= i < |s| ==> IsDigit(s[i])
    ensures r.Some? && IsDigit(s[0]) ==> AllDigits(s) && r.value == DigitsValue(s)
    ensures r.Some? && !IsDigit(s[0]) ==>
      && AllDigits(s[1..])
      && r.value == (if s[0] == MINUS then 0 - DigitsValue(s[1..]) else DigitsValue(s[1..]))
  {
    if |s| == 0 then None
    else if s[0] == PLUS || s[0] == MINUS then
      var digits := s[1..];
      assert forall i :: 1 <= i < |s| ==> s[i] == digits[i - 1];
      if |digits| == 0 || !AllDigits(digits) then None
      else if s[0] == MINUS then Some(0 - DigitsValue(digits))
      else Some(DigitsValue(digits))
    else if AllDigits(s) then Some(DigitsValue(s))
    else None
  }

  /** Atoi reads back what Decimal writes. */
  lemma AtoiDecimal(n: nat)
    ensures Atoi(Decimal(n)) == Some(n)
  {
    var d := Decimal(n);
    assert IsDigit(d[0]);
  }

  /** Atoi accepts a minus sign in front of a decimal spelling. */
  lemma AtoiNegative(n: nat)
    ensures Atoi([MINUS] + Decimal(n)) == Some(0 - n)
  {
    var s := [MINUS] + Decimal(n);
    assert s[1..] == Decimal(n);
  }

  /** ASCII upper-casing of one byte: 'a'..'z' move to 'A'..'Z', all else is kept. */
  function UpperByte(b: byte): byte {
    if 97 <= b <= 122 then b - 32 else b
  }

  /** strings.ToUpper restricted to ASCII, byte by byte. */
  function ToUpper(s: Bytes): (r: Bytes)
    ensures |r| == |s|
  {
    seq(|s|, i requires 0 <= i < |s| => UpperByte(s[i]))
  }

  /** Upper-casing twice is upper-casing once. */
  lemma ToUpperIdempotent(s: Bytes)
    ensures ToUpper(ToUpper(s)) == ToUpper(s)
  {
  }

  /** Upper-casing leaves no lower-case ASCII letter behind. */
  lemma ToUpperNoLower(s: Bytes)
    ensures forall i :: 0 <= i < |ToUpper(s)| ==> !(97 <= ToUpper(s)[i] <= 122)
  {
  }
}

=== FILE: Wrappers.dfy ===
/** Result types shared by the codec, the log and the server. */
module Wrappers {

  /** An optional value: Go's "value, ok" pairs and nil-able errors. */
  datatype Option<+T> = None | Some(value: T)

  /** A value or the error that prevented computing it: Go's "(T, error)" returns. */
  datatype Result<+T, +E> = Success(value: T) | Failure(error: E)
}
